=== FILE: README.md ===
# ecomz backend — a Dafny model of the service core

This project models the business logic of an Express/Mongoose e-commerce
backend. Its services are written in TypeScript. The model covers:

- order placement, status changes and deletion, with their stock bookkeeping;
- the order-number generator;
- the pagination helper behind every list endpoint;
- the catalog write rules for options, categories and products;
- the storefront views of products, addresses and a customer's own orders;
- registration;
- the authentication middleware.

The database is an immutable `Store` value. It has one map per collection,
from document id to record: users, products, variants, orders, categories and
options. Each service call is a pure function from a store and a request to a
`Response`. A `Response` is the next store plus either the returned document
or one of the service's error codes. The side effects of a call show up only
in the returned store. A rejected call, or one aborted by its transaction,
returns the store it was given.

Things the services take from outside become parameters:

- the clock: `now`, and today's local `Date`;
- fresh document ids;
- the listing order of a collection, newest first;
- the password hash;
- the token verifier.

Modules follow the source files:

- Common (common.dfy): `Option`, `Result`, the error codes of the services
- Text (text.dfy): JavaScript `trim`, ASCII `toLowerCase`, the code-point string order MongoDB sorts by
- Decimal (decimal.dfy): `toString`, `padStart`, `parseInt` on decimal digits
- Store (store.dfy): the records of src/models and the store; case-insensitive name lookup
- OrderNumber (order_number.dfy): src/helper/order.helper.ts and its copy in order.services.ts
- OrderService (order_service.dfy): placement, status change and deletion in src/services/order.services.ts
- Pagination (pagination.dfy): `getPaginatedResults` of src/helper/pagination.helper.ts
- OptionService (option_service.dfy): src/services/option.services.ts
- CategoryService (category_service.dfy): src/services/category.services.ts
- ProductService (product_service.dfy): add, delete and view in src/services/product.services.ts
- CustomerService (customer_service.dfy): src/services/customer.services.ts
- UserService (user_service.dfy): src/services/user.services.ts
- Auth (auth.dfy): src/middleware/auth.middleware.ts

## Model

| member | source | states |
|---|---|---|
| `Text.Trim` | src/services/category.services.ts:54 | the result of `trim()` is no longer than the input and starts and ends with a non-space character |
| `Text.TrimSpec` | src/services/category.services.ts:54 | `trim()` keeps the run of the input that follows its leading whitespace and is followed only by whitespace. It gives the empty string exactly when the input is all whitespace |
| `Text.TrimIdempotent` | src/services/option.services.ts:54-56 | trimming a trimmed string changes nothing |
| `Text.ToLower` | src/services/user.services.ts:14 | `toLowerCase()` keeps the length and lowers each character in place |
| `Text.ToLowerIdempotent` | src/services/user.services.ts:36 | lower-casing twice is lower-casing once |
| `Text.LexLeTotal` | src/helper/order.helper.ts:13-15 | the string order used by `sort({ orderNumber: -1 })` compares any two strings |
| `Text.LexLeAntisymmetric` | src/helper/order.helper.ts:13-15 | two strings ordered both ways are equal, so the greatest number is unique |
| `Text.LexLeTransitive` | src/helper/order.helper.ts:13-15 | the sort order is transitive |
| `Text.Greatest` | src/helper/order.helper.ts:13-15 | a non-empty set of numbers has a member that every other member sorts below |
| `Decimal.ParseDigitsOf` | src/helper/order.helper.ts:19-23 | `parseInt(n.toString())` is `n` |
| `Decimal.LexLeIffValueLe` | src/helper/order.helper.ts:15-19 | for digit strings of equal length, string order and numeric order agree |
| `Decimal.PadStart` | src/helper/order.helper.ts:23 | `padStart(w, c)` never truncates: the input ends the result, and only fill characters precede it |
| `Decimal.ParseInt` | src/helper/order.helper.ts:19 | `parseInt` of a digit string is its value; a string that starts with a non-digit other than a sign or space is `NaN` |
| `OrderNumber.LastWithPrefix` | src/helper/order.helper.ts:13-15 | the lookup finds no number iff none carries today's prefix, and otherwise finds the greatest one that does |
| `OrderNumber.DatePrefixLayout` | src/helper/order.helper.ts:5-10 | the prefix is "ORD", then the year modulo 100, the month and the day, each as two digits |
| `OrderNumber.SuffixRoundTrip` | src/helper/order.helper.ts:19-23 | a sequence in 0..9999 prints as four digits that `parseInt` reads back as the sequence |
| `OrderNumber.FirstOrderOfDay` | src/helper/order.helper.ts:17-23 | with no number for today yet, the number is the prefix followed by "0001" |
| `OrderNumber.SequenceFollowsLast` | src/helper/order.helper.ts:17-23 | otherwise the sequence is one more than the last four digits of the greatest number with today's prefix |
| `OrderNumber.GenerateIsFresh` | src/helper/order.helper.ts:4-24 | while every stored number for today has four digits below 9999, the new number has the same layout, sorts above all of them and so is not stored yet |
| `OrderNumber.ConsecutiveNumbers` | src/helper/order.helper.ts:13-23 | once a generated number is stored, the next call continues its sequence plus one |
| `OrderNumber.SequenceOverflow` | src/helper/order.helper.ts:19-23 | sequence 10000 prints as five digits whose last four parse to 0 |
| `OrderNumber.SequenceRepeatsAfterOverflow` | src/helper/order.helper.ts:13-23 | with exactly the 9999 and 10000 numbers of today stored, the greatest in string order is still the 9999 one, so the 10000 number is handed out again |
| `OrderService.Reserve` | src/services/order.services.ts:140-189 | on success every variant's quantity drops by the total requested of it across the items, in input order; failures are only PRODUCT_NOT_FOUND, VARIANT_NOT_FOUND or INSUFFICIENT_STOCK |
| `OrderService.ReserveSucceedsIff` | src/services/order.services.ts:140-189 | reservation succeeds exactly when every item's product and variant exist and each variant's stock covers its accumulated demand (equal stock is enough: the test is a strict `<`) |
| `OrderService.ReserveFailsAtFirstFailure` | src/services/order.services.ts:140-181 | every error names the first item whose check fails, with the checks run in source order |
| `OrderService.FirstFailureDeterminesError` | src/services/order.services.ts:140-181 | conversely, the first failing item's check decides the error code |
| `OrderService.Restock` | src/services/order.services.ts:373-381 | every variant's quantity rises by the order's total for it; variants the order does not mention are unchanged |
| `OrderService.RestockUndoesReserve` | src/services/order.services.ts:184-188 | restocking the items of a reservation gives back the stock as it was |
| `OrderService.DeliveryDate` | src/services/order.services.ts:218-220 | a given delivery date is kept, the epoch included; otherwise it is now plus two days in milliseconds |
| `OrderService.RecordAddress` | src/services/order.services.ts:225-230 | with a shipping address, the customer's address list becomes exactly that address, replacing the old list; other users are untouched |
| `OrderService.AddOrder` | src/services/order.services.ts:99-252 | CUSTOMER_NOT_FOUND iff the customer is missing, then the reservation's error. Success iff the customer exists, the reservation passes and the generated number is free. The order gets the generated number, the request's items and status (default placed), and exactly one "Order created" history entry. Stock is reserved and the address recorded. Any failure leaves the store unchanged |
| `OrderService.PlacedOrderDefaults` | src/services/order.services.ts:106-119 | shipping cost, tax and discount default to 0, payment to "cod" and "pending", and the amounts are stored as given |
| `OrderService.TransitionsMoveForward` | src/services/order.services.ts:276-293 | each allowed transition moves forward: placed, confirmed, shipped, delivered. Delivered and cancelled are terminal, and only placed or confirmed orders can be cancelled |
| `OrderService.LifecycleIsShort` | src/services/order.services.ts:276-293 | a chain of allowed transitions visits at most four statuses |
| `OrderService.StatusNote` | src/services/order.services.ts:299 | the history note is the given note, or "Status changed to <status>" when the note is absent or empty |
| `OrderService.UpdateOrderStatus` | src/services/order.services.ts:255-333 | ORDER_NOT_FOUND for an unknown id. Success iff the transition table allows the move; a refused move on an existing order, self-transitions and terminal states included, is INVALID_STATUS_TRANSITION with the store unchanged. On success only this order changes: its status is set, one history entry is appended, and the delivery date changes only when a truthy one is given. On error nothing changes |
| `OrderService.DeleteOrder` | src/services/order.services.ts:336-405 | ORDER_NOT_FOUND, or CANNOT_DELETE_ORDER unless the order is placed or cancelled. A deleted order is removed; a placed one has its items' quantities added back, a cancelled one does not. Nothing else changes |
| `OrderService.ReserveKeepsStockNonNegative` | src/services/order.services.ts:170 | a successful reservation leaves no quantity negative |
| `OrderService.PlacedNumberIsNew` | src/models/Order.model.ts:52 | a placed order's number differs from every stored order's number |
| `OrderService.AddOrderPreservesInvariant` | src/services/order.services.ts:99-252 | placement keeps stock non-negative, orders well formed and order numbers unique |
| `OrderService.UpdateOrderStatusPreservesInvariant` | src/services/order.services.ts:255-333 | a status change keeps the same invariant |
| `OrderService.DeleteOrderPreservesInvariant` | src/services/order.services.ts:336-405 | deletion keeps the same invariant |
| `OrderService.PlaceThenDeleteRestoresStock` | src/services/order.services.ts:373-381 | deleting a just-placed order gives back exactly the stock the store had before placement |
| `OrderService.DeleteUndoesReservation` | src/services/order.services.ts:359-383 | deleting a placed order whose items were reserved restores every reserved variant |
| `OrderService.CancelThenDeleteKeepsStockOut` | src/services/order.services.ts:373 | cancelling and then deleting an order never returns its stock |
| `OrderService.PlacementNeverCollides` | src/services/order.services.ts:192 | while today's sequence is below 9999, placement never fails on the unique order-number index |
| `OrderService.PlacementFailsAfterOverflow` | src/services/order.services.ts:192-223 | after the 10000th order of a day, every later placement that day fails with INTERNAL_ERROR and changes nothing |
| `Pagination.CeilDiv` | src/helper/pagination.helper.ts:112 | `Math.ceil(n / d)`: the least page count whose pages hold all items |
| `Pagination.Select` | src/helper/pagination.helper.ts:95-121 | a document is among the matches as often as in the newest-first listing when it passes the filter (the additional filters, and the search term in some search field up to case), and never otherwise; no more matches than documents |
| `Pagination.SelectSingleton` | src/helper/pagination.helper.ts:95-111 | one document is kept exactly when it passes the filter |
| `Pagination.SelectAppend` | src/helper/pagination.helper.ts:116-121 | the filter keeps the `createdAt` order: the matches of a concatenated listing are the first part's matches followed by the second part's |
| `Pagination.SearchNarrows` | src/helper/pagination.helper.ts:97-108 | a search never matches more documents than no search |
| `Pagination.BlankSearchIsAdditionalFilter` | src/helper/pagination.helper.ts:95-97 | with an empty search or no search fields the filter is exactly the additional filters |
| `Pagination.Window` | src/helper/pagination.helper.ts:116-121 | `skip` then `limit` keeps at most `limit` items, the ones from position `skip` on |
| `Pagination.Paginate` | src/helper/pagination.helper.ts:110-133 | totalPages is the ceiling of the count over limit. The data are the items from position (page-1)·limit, exactly `limit` of them or the rest of the matches if fewer remain. currentPage, itemsPerPage and totalItems echo the inputs, and hasPrevPage iff page > 1 |
| `Pagination.GetPaginatedResults` | src/helper/pagination.helper.ts:84-134 | page defaults to 1 and limit to 10. The response is that page of the matching documents: the matches from (page-1)·limit on, `limit` of them or the rest, with totalPages the ceiling of the count over limit. hasNextPage iff matches remain after the window, hasPrevPage iff page > 1. Every returned document matches and comes from the listing |
| `Pagination.PaginateIsPageOf` | src/helper/pagination.helper.ts:110-133 | the page arithmetic gives exactly the window of the matches from (page-1)·limit, the ceiling page count, and both flags in both directions |
| `Pagination.PageBeforeLast` | src/helper/pagination.helper.ts:112-130 | `page < totalPages` holds exactly when the items before the next page do not exhaust the total |
| `Pagination.NextPageIffMoreItems` | src/helper/pagination.helper.ts:130-131 | hasNextPage iff matches remain after this page's window; hasPrevPage iff the window does not start at the first match |
| `Pagination.EveryMatchOnItsPage` | src/helper/pagination.helper.ts:112-121 | the j-th match is on page j / limit + 1, within totalPages, at position j mod limit |
| `Pagination.MatchOnSomePage` | src/helper/pagination.helper.ts:84-134 | without a search term, every listed document that passes the additional filters is on some page of the response, for any valid limit |
| `OptionService.CleanValues` | src/services/option.services.ts:54-56 | cleaning keeps no more values than given, each non-empty and trimmed |
| `OptionService.CleanValuesMembership` | src/services/option.services.ts:54-56 | a value survives cleaning iff it is the non-empty trim of a given value |
| `OptionService.CleanValuesAppend` | src/services/option.services.ts:54-56 | cleaning works value by value, keeping order |
| `OptionService.CleanValuesIdempotent` | src/services/option.services.ts:139-141 | cleaning cleaned values changes nothing |
| `OptionService.CleanValuesEmptyIff` | src/services/option.services.ts:58-67 | nothing survives iff every value is blank |
| `OptionService.AddOption` | src/services/option.services.ts:31-92 | OPTION_EXISTS iff a stored option matches the trimmed name up to case, then INVALID_VALUES iff nothing survives cleaning; otherwise success, or INTERNAL_ERROR for a blank name. On success the trimmed name and cleaned values are stored, with isActive defaulting to true. Errors change nothing |
| `OptionService.EditOption` | src/services/option.services.ts:95-179 | OPTION_NOT_FOUND for an unknown id. For a stored option, OPTION_EXISTS iff a given non-empty name matches another option up to case (the option itself is skipped), then INVALID_VALUES iff given values clean to nothing. Exactly the given fields change; a name applies only when non-empty |
| `OptionService.DeleteOption` | src/services/option.services.ts:182-218 | soft delete: the option stays, with isActive false |
| `OptionService.EmptyEditChangesNothing` | src/services/option.services.ts:135-162 | an edit with no fields returns the stored option and leaves the store as it was |
| `OptionService.EditOptionIdempotent` | src/services/option.services.ts:135-162 | repeating a successful edit changes nothing more |
| `OptionService.DeleteOptionIdempotent` | src/services/option.services.ts:186-201 | deleting twice is deleting once |
| `OptionService.AddOptionKeepsWellFormed` | src/services/option.services.ts:38-73 | adding keeps option names distinct up to case, names non-empty and trimmed, and value lists non-empty and clean |
| `OptionService.EditOptionKeepsWellFormed` | src/services/option.services.ts:113-162 | editing keeps the same invariant |
| `OptionService.DeleteOptionKeepsWellFormed` | src/services/option.services.ts:182-218 | deleting keeps the same invariant |
| `CategoryService.DescriptionOf` | src/services/category.services.ts:55 | the stored description is the given one trimmed, and "" when none is given |
| `CategoryService.AddCategory` | src/services/category.services.ts:31-77 | CATEGORY_EXISTS iff the trimmed name matches a stored one up to case. On success the trimmed name, the description trimmed or "", the image or "", and isActive defaulting to true are stored. Errors change nothing |
| `CategoryService.EditCategory` | src/services/category.services.ts:80-146 | CATEGORY_NOT_FOUND for an unknown id. CATEGORY_EXISTS iff a given name matches another category. The name applies only when non-empty, the other fields whenever given, and nothing else changes |
| `CategoryService.DeleteCategory` | src/services/category.services.ts:149-183 | soft delete: the category stays, with isActive false |
| `CategoryService.RenameToSelfAllowed` | src/services/category.services.ts:99-103 | renaming a category to its own name in another case is not refused |
| `CategoryService.EmptyEditChangesNothing` | src/services/category.services.ts:117-129 | an edit with no fields returns the stored category and leaves the store as it was |
| `CategoryService.EditCategoryIdempotent` | src/services/category.services.ts:117-129 | repeating a successful edit changes nothing more |
| `CategoryService.DeleteCategoryIdempotent` | src/services/category.services.ts:166 | deleting twice is deleting once |
| `CategoryService.AddCategoryKeepsWellFormed` | src/services/category.services.ts:38-58 | adding keeps category names distinct up to case, non-empty and trimmed |
| `CategoryService.EditCategoryKeepsWellFormed` | src/services/category.services.ts:98-129 | editing keeps the same invariant |
| `CategoryService.DeleteCategoryKeepsWellFormed` | src/services/category.services.ts:149-183 | deleting keeps the same invariant |
| `ProductService.TrimmedSkus` | src/services/product.services.ts:119 | one trimmed SKU per requested variant, in order |
| `ProductService.SetSizeIffDistinct` | src/services/product.services.ts:119-121 | `skus.length !== [...new Set(skus)].length` holds exactly when two SKUs are equal |
| `ProductService.NewProduct` | src/services/product.services.ts:153-160 | the product stores the trimmed name, and the trimmed description exactly when one is given. isFeatured defaults to false and status to active |
| `ProductService.NewVariant` | src/services/product.services.ts:165-181 | each variant references the new product and stores its SKU trimmed. quantity and lowStockThreshold default to 0, images and selectedOptions to empty, isActive to true |
| `ProductService.AddProduct` | src/services/product.services.ts:83-209 | the checks in order, each code exactly when its check fails and the earlier ones pass: PRODUCT_EXISTS iff a stored product matches the trimmed name up to case, DUPLICATE_SKU iff two trimmed SKUs are equal, SKU_EXISTS iff a stored variant has one of them, INTERNAL_ERROR iff the name trims to nothing or a variant fails the schema. On success the product and all its variants are stored under their new ids; on any failure nothing is |
| `ProductService.AddProductKeepsSkusUnique` | src/services/product.services.ts:118-150 | a successful add keeps SKUs unique across all stored variants |
| `ProductService.AddedVariantsBelongToProduct` | src/services/product.services.ts:165-184 | every variant an add creates references the new product, and no stored variant changes |
| `ProductService.DeleteProduct` | src/services/product.services.ts:212-254 | PRODUCT_NOT_FOUND for an unknown id; otherwise a soft delete that sets status inactive and leaves variants alone |
| `ProductService.VariantsOf` | src/services/product.services.ts:55-57 | exactly the stored variants that reference the product, unchanged |
| `ProductService.ViewProduct` | src/services/product.services.ts:34-80 | PRODUCT_NOT_FOUND iff the id is unknown; otherwise the product with all its variants, active or not |
| `ProductService.DeleteKeepsAdminView` | src/services/product.services.ts:229-234 | after a delete the admin view still shows the product, inactive, with the same variants |
| `ProductService.AddThenView` | src/services/product.services.ts:83-209 | right after an add, the admin view shows the new product with exactly the new variants |
| `CustomerService.Public` | src/services/customer.services.ts:75 | the storefront projection keeps every variant field except cost and lowStockThreshold |
| `CustomerService.ViewProduct` | src/services/customer.services.ts:39-99 | PRODUCT_NOT_FOUND for an unknown id, PRODUCT_NOT_AVAILABLE unless the status is active. Otherwise the product and exactly its active variants, projected |
| `CustomerService.AdminFieldsDoNotLeak` | src/services/customer.services.ts:71-76 | changing any variant's cost or low-stock threshold changes nothing in the storefront view |
| `CustomerService.StorefrontWithinAdminView` | src/services/customer.services.ts:71-81 | the storefront shows the admin view's product and a subset of its variants, projected |
| `CustomerService.FetchAddresses` | src/services/customer.services.ts:102-134 | USER_NOT_FOUND iff the user is unknown; otherwise the stored addresses, or none when the field is absent |
| `CustomerService.AddOrder` | src/services/customer.services.ts:137-290 | the storefront placement runs the admin placement's checks in the same order: CUSTOMER_NOT_FOUND iff the customer is unknown, then the reservation's error, then success iff the generated number is fresh. The order gets the generated number, the request's customer and items, status defaulting to Placed, the delivery date defaulting to two days after `now`, and a one-entry "Order created" history. The store gets the order under its id, the reserved stock and the overwritten address; products, categories and options are unchanged, and a failure changes nothing |
| `CustomerService.PlacementOverwritesAddresses` | src/services/customer.services.ts:263-268 | after a placement with a shipping address, fetching the customer's addresses gives exactly that address |
| `CustomerService.ViewCustomerOrder` | src/services/customer.services.ts:329-369 | the order is returned iff it exists and belongs to the caller; otherwise ORDER_NOT_FOUND |
| `CustomerService.PlacedOrderVisibleOnlyToOwner` | src/services/customer.services.ts:334-352 | a just-placed order is visible to its customer and ORDER_NOT_FOUND for anyone else |
| `CustomerService.ListCustomerOrders` | src/services/customer.services.ts:293-326 | every listed order belongs to the caller and comes from the listing. The response is the requested page of the caller's orders matching the search: the window from (page-1)·limit, the count and page total, and both flags in both directions |
| `CustomerService.PlacedOrderIsListed` | src/services/customer.services.ts:293-326 | once the listing reads the stored orders, an order the caller has just placed is on some page of their unsearched order list, for any valid limit |
| `CustomerService.ListingsAreDisjoint` | src/services/customer.services.ts:300-310 | two customers' order lists never share an order |
| `UserService.NormalizeEmail` | src/services/user.services.ts:36 | the stored email is trimmed and already in lower case |
| `UserService.NormalizeEmailSpec` | src/services/user.services.ts:36 | the stored email is the lower-cased run of the input between its leading and trailing whitespace, and empty exactly when the input is all whitespace |
| `UserService.OrElse` | src/services/user.services.ts:38-40 | `x \|\| fallback`: an absent or empty value falls back |
| `UserService.Register` | src/services/user.services.ts:5-78 | USER_EXISTS iff a stored email equals the lower-cased, untrimmed one; any other failure is INTERNAL_ERROR. On success the trimmed names, the lower-cased and trimmed email and the hash of the password are stored; phone and image default to "", role to "customer", and the account starts with no addresses, active. The reply holds every field but the password. Errors change nothing |
| `UserService.RegisterKeepsEmailsUnique` | src/models/User.model.ts:51 | registration keeps emails unique |
| `UserService.NormalizeIdempotent` | src/services/user.services.ts:36 | normalising a stored email changes nothing |
| `UserService.StoredNormalizedEmailIsFound` | src/services/user.services.ts:13-15 | for an email already in stored form, the lower-cased lookup finds exactly the users holding it |
| `UserService.RegisterTwiceFails` | src/services/user.services.ts:13-45 | registering an email again fails: USER_EXISTS when submitted in stored form, INTERNAL_ERROR from the unique index when the lookup, which does not trim, misses the stored email |
| `Auth.ExtractToken` | src/middleware/auth.middleware.ts:19-27 | a non-empty authToken cookie wins. Otherwise the token is what follows "Bearer " in the header; there is none without that prefix or with nothing after it |
| `Auth.BearerRoundTrip` | src/middleware/auth.middleware.ts:23-26 | a header "Bearer " + token gives back the token |
| `Auth.CookieTakesPriority` | src/middleware/auth.middleware.ts:20-22 | with a non-empty cookie the header is never consulted |
| `Auth.AuthenticateToken` | src/middleware/auth.middleware.ts:14-48 | 401 without a token or when verification fails. Otherwise next is called once, with the decoded payload as the user |
| `Auth.RequireAdmin` | src/middleware/auth.middleware.ts:50-72 | 401 iff there is no user, 403 iff the role is not "admin", otherwise next with the same user |
| `Auth.AdminGateDecisions` | src/middleware/auth.middleware.ts:14-72 | through both middlewares a request goes on iff its token verifies to an admin. It gets 403 iff the token verifies to another role, and 401 iff no token verifies |

## Left out

- Controllers, routes and the express-validator chains. The request bounds the validators enforce become `requires`: at least one item, item quantities of at least 1, and page ≥ 1 with limit in 1..100.
- Sessions, transactions and concurrency. Each call is one atomic step, and an aborted transaction is a returned store equal to the input. The order-number lookup runs outside the session, so two concurrent placements can race. Only the sequential behaviour is modelled.
- The clock. `new Date()` and `Date.now()` are the `now` and `today` parameters, and time zones are not modelled.
- bcrypt hashing and JWT verification are function parameters. Their internals and the salt rounds are not modelled.
- Cloudinary uploads, the upload middleware, the database connection, server start-up, logout and cookie clearing have no business logic and are not modelled.
- `populate`, `lean` and `select`, apart from the storefront's removal of cost and lowStockThreshold. Timestamps (`createdAt`, `updatedAt`) and variant dimensions are not modelled.
- Monetary fields are carried as given and never computed with. They are `real`, not IEEE doubles.
- Lower-casing is ASCII only, whereas JavaScript's `toLowerCase` is Unicode-aware. Name uniqueness builds a RegExp from unescaped input; it is modelled as case-insensitive equality, so a name containing regex metacharacters behaves differently in the source. The pagination `$regex` search is modelled as literal case-insensitive containment.
- `parseInt` of non-numeric `page` and `limit` (NaN) is not modelled: the query carries them as integers.
- Mongoose schema validation is modelled only where a service can reach it with validated input: `required` names and SKUs, a required price, the role enum, and the unique indexes on order number and email. Each surfaces as INTERNAL_ERROR with nothing written. Other validator failures, and a request missing a field the service calls `.trim()` on (a TypeError, also INTERNAL_ERROR), are not modelled.
- An order item's variant is not checked to belong to the item's product, and a product's category is not checked to exist. The source does neither, and neither does the model.
- The list endpoints (`listProductsService`, `listOrdersService`) and the admin `viewOrderService` are thin calls into the pagination helper or a lookup by id; only the customer's order list is modelled.
- The registration email is taken to be present, so `email?.toLowerCase()` on a missing email is not modelled.
- OrderService.PlacementNeverCollides: holds only while today's stored sequences are all four-digit and below 9999; past that the generator repeats a number, as `OrderNumber.SequenceRepeatsAfterOverflow` shows.
- OrderService.UpdateOrderStatus: the status body's `expectedDeliveryDate` has no validator, and the model reads it as a JSON number, where 0 is falsy and leaves the date unchanged. String, boolean and null bodies are not modelled.
- Decimal.ParseInt: covers the decimal strings the order-number generator writes. `parseInt` without a radix reads a "0x" prefix as hexadecimal; the model does not, since no stored order number carries one.
- OrderService.AddOrder: its `ValidItems` requirement comes from the storefront validator (src/validator/customer.validator.ts:61-99). The admin route src/routes/dashboard-routes/order.routes.ts:13-19,46-51 imports a `createOrderValidator` from order.validator.ts, which does not export one, so nothing on that route is known to enforce the bound. The admin placement is modelled under the same requirement.

=== FILE: auth.dfy ===
/**
  The request gate (src/middleware/auth.middleware.ts): where the access token
  is taken from, and the 401/403 decisions of `authenticateToken` and
  `requireAdmin`. Token verification is a parameter.
 */
module Auth {
  import opened Common
  import Text

  /** The decoded token: what `req.user` is set to. */
  datatype Payload = Payload(userId: string, email: string, role: string,
                             firstName: Option<string>, lastName: Option<string>)

  /** What a middleware does with a request: answer it with an error status, or call `next` once with the user. */
  datatype Gate = Reject(status: int) | Continue(user: Payload)

  const BearerPrefix: string := "Bearer "

  /**
    The token of a request: the `authToken` cookie when it is non-empty,
    otherwise what follows "Bearer " in the Authorization header. An empty
    token counts as none.
   */
  function ExtractToken(cookie: Option<string>, header: Option<string>): (token: Option<string>)
    ensures token.Some? ==> token.value != []
    ensures cookie.Some? && cookie.value != [] ==> token == cookie
    ensures !(cookie.Some? && cookie.value != []) ==>
              (token.Some? <==> header.Some? && Text.StartsWith(header.value, BearerPrefix) && |header.value| > 7)
    ensures !(cookie.Some? && cookie.value != []) && token.Some? ==> BearerPrefix + token.value == header.value
  {
    if cookie.Some? && cookie.value != [] then cookie
    else if header.Some? && Text.StartsWith(header.value, BearerPrefix) && header.value[7..] != [] then
      Some(header.value[7..])
    else None
  }

  /** A header built from a token gives back that token when no cookie is set. */
  lemma BearerRoundTrip(token: string)
    requires token != []
    ensures ExtractToken(None, Some(BearerPrefix + token)) == Some(token)
  {
    assert (BearerPrefix + token)[..7] == BearerPrefix;
    assert (BearerPrefix + token)[7..] == token;
  }

  /** A non-empty cookie wins whatever the header says. */
  lemma CookieTakesPriority(cookie: string, header: Option<string>, other: Option<string>)
    requires cookie != []
    ensures ExtractToken(Some(cookie), header) == ExtractToken(Some(cookie), other) == Some(cookie)
  {
  }

  /**
    `authenticateToken`: 401 without a token, 401 when verification fails,
    otherwise `next` with the decoded payload.
   */
  function AuthenticateToken(cookie: Option<string>, header: Option<string>, verify: string -> Option<Payload>)
    : (g: Gate)
    ensures ExtractToken(cookie, header).None? ==> g == Reject(401)
    ensures g.Continue? <==> ExtractToken(cookie, header).Some? && verify(ExtractToken(cookie, header).value).Some?
    ensures g.Continue? ==> g.user == verify(ExtractToken(cookie, header).value).value
    ensures g.Reject? ==> g.status == 401
  {
    var token := ExtractToken(cookie, header);
    if token.None? then Reject(401)
    else
      var decoded := verify(token.value);
      if decoded.None? then Reject(401) else Continue(decoded.value)
  }

  /** `requireAdmin`: 401 without a user, 403 for a role other than "admin", otherwise `next`. */
  function RequireAdmin(user: Option<Payload>): (g: Gate)
    ensures user.None? <==> g == Reject(401)
    ensures user.Some? && user.value.role != "admin" <==> g == Reject(403)
    ensures g.Continue? <==> user.Some? && user.value.role == "admin"
    ensures g.Continue? ==> g.user == user.value
  {
    if user.None? then Reject(401)
    else if user.value.role != "admin" then Reject(403)
    else Continue(user.value)
  }

  /** The two middlewares in sequence, as the admin routes mount them. */
  function AdminGate(cookie: Option<string>, header: Option<string>, verify: string -> Option<Payload>): Gate {
    match AuthenticateToken(cookie, header, verify)
    case Reject(status) => Reject(status)
    case Continue(user) => RequireAdmin(Some(user))
  }

  /**
    Through both middlewares a request goes on exactly when its token verifies
    to an admin; it gets 403 when the token verifies to anyone else, and 401
    when there is no token that verifies.
   */
  lemma AdminGateDecisions(cookie: Option<string>, header: Option<string>, verify: string -> Option<Payload>)
    ensures var token := ExtractToken(cookie, header);
            var g := AdminGate(cookie, header, verify);
            && (g.Continue? <==> token.Some? && verify(token.value).Some? && verify(token.value).value.role == "admin")
            && (g == Reject(403) <==> token.Some? && verify(token.value).Some? && verify(token.value).value.role != "admin")
            && (g == Reject(401) <==> token.None? || verify(token.value).None?)
  {
  }
}

=== FILE: category_service.dfy ===
/**
  Categories (src/services/category.services.ts): adding, editing and
  soft-deleting product categories.
 */
module CategoryService {
  import opened Common
  import opened Store
  import opened Text

  function CategoryName(c: Category): string {
    c.name
  }

  /** The body of an add request; `None` is a field left out. */
  datatype CategoryInput = CategoryInput(name: string, description: Option<string>, image: Option<string>,
                                         isActive: Option<bool>)

  /** The stored description: the given one trimmed, else "". */
  function DescriptionOf(description: Option<string>): (d: string)
    ensures IsTrimmed(d)
    ensures description.None? ==> d == ""
    ensures description.Some? ==> d == Trim(description.value)
  {
    if description.Some? then Trim(description.value) else ""
  }

  /**
    `addCategoryService`: CATEGORY_EXISTS when a stored category has the
    trimmed name up to case; otherwise the category is stored with the trimmed
    name, the trimmed description or "", the image or "", and `isActive`
    defaulting to true. A name that trims to nothing fails the schema's
    `required` validator on save (INTERNAL_ERROR). `newId` is the new
    document's id.
   */
  function AddCategory(st: Store, input: CategoryInput, newId: Id): (out: Response<Category>)
    requires newId !in st.categories
    ensures out.result.Err? ==> out.store == st
    ensures out.result == Err(CategoryExists) <==> NameInUse(st.categories, CategoryName, Trim(input.name), None)
    ensures out.result.Ok? <==> !NameInUse(st.categories, CategoryName, Trim(input.name), None) && Trim(input.name) != []
    ensures out.result.Ok? ==>
              && out.store == st.(categories := st.categories[newId := out.result.value])
              && out.result.value.name == Trim(input.name)
              && out.result.value.description == DescriptionOf(input.description)
              && out.result.value.image == input.image.GetOr("")
              && out.result.value.isActive == input.isActive.GetOr(true)
  {
    var name := Trim(input.name);
    if NameInUse(st.categories, CategoryName, name, None) then Response(st, Err(CategoryExists))
    else if name == [] then Response(st, Err(InternalError))
    else
      var c := Category(name, DescriptionOf(input.description), input.image.GetOr(""), input.isActive.GetOr(true));
      Response(st.(categories := st.categories[newId := c]), Ok(c))
  }

  /** The body of an edit request; absent fields are left alone. */
  datatype CategoryPatch = CategoryPatch(name: Option<string>, description: Option<string>, image: Option<string>,
                                         isActive: Option<bool>)

  /** A name is applied only when it is given and non-empty (truthy). */
  predicate NameGiven(name: Option<string>) {
    name.Some? && name.value != []
  }

  /** The category with the patch applied: the name only when truthy, the other fields whenever given. */
  function Patched(c: Category, patch: CategoryPatch): Category {
    c.(name := if NameGiven(patch.name) then Trim(patch.name.value) else c.name,
       description := if patch.description.Some? then Trim(patch.description.value) else c.description,
       image := patch.image.GetOr(c.image),
       isActive := patch.isActive.GetOr(c.isActive))
  }

  /**
    `editCategoryService`: CATEGORY_NOT_FOUND for an unknown id; a given name
    must not be used by another category (CATEGORY_EXISTS) and must not trim
    to nothing (the update's `required` validator, INTERNAL_ERROR); then
    exactly the given fields change.
   */
  function EditCategory(st: Store, id: Id, patch: CategoryPatch): (out: Response<Category>)
    ensures id !in st.categories ==> out == Response(st, Err(CategoryNotFound))
    ensures out.result.Err? ==> out.store == st
    ensures id in st.categories ==>
              (out.result == Err(CategoryExists) <==>
                 NameGiven(patch.name) && NameInUse(st.categories, CategoryName, Trim(patch.name.value), Some(id)))
    ensures id in st.categories ==>
              (out.result.Ok? <==>
                 !(NameGiven(patch.name)
                   && (NameInUse(st.categories, CategoryName, Trim(patch.name.value), Some(id))
                       || Trim(patch.name.value) == [])))
    ensures out.result.Ok? ==>
              var before, c := st.categories[id], out.result.value;
              && out.store == st.(categories := st.categories[id := c])
              && c.name == (if NameGiven(patch.name) then Trim(patch.name.value) else before.name)
              && c.description == (if patch.description.Some? then Trim(patch.description.value) else before.description)
              && c.image == (if patch.image.Some? then patch.image.value else before.image)
              && c.isActive == (if patch.isActive.Some? then patch.isActive.value else before.isActive)
  {
    if id !in st.categories then Response(st, Err(CategoryNotFound))
    else if NameGiven(patch.name) && NameInUse(st.categories, CategoryName, Trim(patch.name.value), Some(id))
    then Response(st, Err(CategoryExists))
    else if NameGiven(patch.name) && Trim(patch.name.value) == [] then Response(st, Err(InternalError))
    else
      var c := Patched(st.categories[id], patch);
      Response(st.(categories := st.categories[id := c]), Ok(c))
  }

  /** `deleteCategoryService`: a soft delete; the category stays, marked inactive. */
  function DeleteCategory(st: Store, id: Id): (out: Response<()>)
    ensures id !in st.categories ==> out == Response(st, Err(CategoryNotFound))
    ensures id in st.categories ==>
              && out.result.Ok?
              && out.store == st.(categories := st.categories[id := st.categories[id].(isActive := false)])
  {
    if id !in st.categories then Response(st, Err(CategoryNotFound))
    else Response(st.(categories := st.categories[id := st.categories[id].(isActive := false)]), Ok(()))
  }

  /** An edit that names the category's own name again, in any case, is never refused as a duplicate. */
  lemma RenameToSelfAllowed(st: Store, id: Id, newName: string)
    requires id in st.categories && CategoriesWellFormed(st.categories)
    requires EqualsIgnoreCase(Trim(newName), st.categories[id].name)
    ensures EditCategory(st, id, CategoryPatch(Some(newName), None, None, None)).result.Ok?
  {
    OwnNameNotInUse(st.categories, CategoryName, id);
  }

  /** An edit with no fields leaves the store as it was and returns the stored category. */
  lemma EmptyEditChangesNothing(st: Store, id: Id)
    requires id in st.categories
    ensures EditCategory(st, id, CategoryPatch(None, None, None, None)) == Response(st, Ok(st.categories[id]))
  {
    assert st.categories[id := st.categories[id]] == st.categories;
  }

  /** Applying the same edit twice is applying it once. */
  lemma EditCategoryIdempotent(st: Store, id: Id, patch: CategoryPatch)
    requires EditCategory(st, id, patch).result.Ok?
    ensures var once := EditCategory(st, id, patch);
            EditCategory(once.store, id, patch) == once
  {
    var once := EditCategory(st, id, patch);
    var c := once.result.value;
    if patch.description.Some? {
      TrimIdempotent(patch.description.value);
    }
    assert Patched(c, patch) == c;
    assert once.store.categories[id := c] == once.store.categories;
  }

  /** Deleting twice is deleting once. */
  lemma DeleteCategoryIdempotent(st: Store, id: Id)
    ensures var once := DeleteCategory(st, id);
            DeleteCategory(once.store, id).store == once.store
  {
    if id in st.categories {
      var once := DeleteCategory(st, id).store;
      assert once.categories[id := once.categories[id].(isActive := false)] == once.categories;
    }
  }

  /** What adding, editing and deleting keep: names distinct up to case, non-empty and trimmed. */
  ghost predicate CategoriesWellFormed(categories: map<Id, Category>) {
    && DistinctNames(categories, CategoryName)
    && forall id :: id in categories ==> categories[id].name != [] && IsTrimmed(categories[id].name)
  }

  lemma StoreKeepsWellFormed(categories: map<Id, Category>, id: Id, c: Category)
    requires CategoriesWellFormed(categories) && c.name != [] && IsTrimmed(c.name)
    requires !NameInUse(categories, CategoryName, c.name, Some(id))
    ensures CategoriesWellFormed(categories[id := c])
  {
    DistinctNamesAfterUpdate(categories, CategoryName, id, c);
  }

  lemma AddCategoryKeepsWellFormed(st: Store, input: CategoryInput, newId: Id)
    requires newId !in st.categories && CategoriesWellFormed(st.categories)
    ensures CategoriesWellFormed(AddCategory(st, input, newId).store.categories)
  {
    var out := AddCategory(st, input, newId);
    if out.result.Ok? {
      StoreKeepsWellFormed(st.categories, newId, out.result.value);
    }
  }

  lemma EditCategoryKeepsWellFormed(st: Store, id: Id, patch: CategoryPatch)
    requires CategoriesWellFormed(st.categories)
    ensures CategoriesWellFormed(EditCategory(st, id, patch).store.categories)
  {
    var out := EditCategory(st, id, patch);
    if out.result.Ok? {
      if !NameGiven(patch.name) {
        OwnNameNotInUse(st.categories, CategoryName, id);
      }
      StoreKeepsWellFormed(st.categories, id, out.result.value);
    }
  }

  lemma DeleteCategoryKeepsWellFormed(st: Store, id: Id)
    requires CategoriesWellFormed(st.categories)
    ensures CategoriesWellFormed(DeleteCategory(st, id).store.categories)
  {
    if id in st.categories {
      OwnNameNotInUse(st.categories, CategoryName, id);
      StoreKeepsWellFormed(st.categories, id, st.categories[id].(isActive := false));
    }
  }
}

=== FILE: common.dfy ===
/**
  Types shared by every service: an optional value, the error codes the services
  report, and the `ServiceResult` shape they return.
 */
module Common {

  /** A value that may be absent (a JavaScript `undefined` field of a request). */
  datatype Option<+T> = None | Some(value: T) {

    /** The value, or `default` when absent: the `x = default` destructuring default. */
    function GetOr(default: T): T {
      match this
      case Some(v) => v
      case None => default
    }
  }

  /** The `code` field of a failed `ServiceResult`. */
  datatype ErrorCode =
    | CustomerNotFound
    | ProductNotFound
    | VariantNotFound
    | InsufficientStock
    | OrderNotFound
    | InvalidStatusTransition
    | CannotDeleteOrder
    | ProductNotAvailable
    | UserNotFound
    | UserExists
    | OptionExists
    | OptionNotFound
    | InvalidValues
    | CategoryExists
    | CategoryNotFound
    | ProductExists
    | DuplicateSku
    | SkuExists
    | InternalError

  /** The HTTP status each error code is reported with. */
  function StatusCode(code: ErrorCode): nat {
    match code
    case CustomerNotFound => 404
    case ProductNotFound => 404
    case VariantNotFound => 404
    case InsufficientStock => 400
    case OrderNotFound => 404
    case InvalidStatusTransition => 400
    case CannotDeleteOrder => 400
    case ProductNotAvailable => 404
    case UserNotFound => 404
    case UserExists => 409
    case OptionExists => 409
    case OptionNotFound => 404
    case InvalidValues => 400
    case CategoryExists => 409
    case CategoryNotFound => 404
    case ProductExists => 409
    case DuplicateSku => 400
    case SkuExists => 409
    case InternalError => 500
  }

  /** `{ success: true, data }` or `{ success: false, error }`. */
  datatype Result<+T> = Ok(value: T) | Err(code: ErrorCode)
}

=== FILE: customer_service.dfy ===
/**
  The customer-facing services (src/services/customer.services.ts): the
  storefront product view, the address book, order placement, and the
  customer's own orders.
 */
module CustomerService {
  import opened Common
  import opened Store
  import OrderNumber
  import OrderService
  import Pagination
  import ProductService

  /** A variant as the storefront shows it: without `cost` and `lowStockThreshold`. */
  datatype PublicVariant = PublicVariant(
    productId: Id,
    sku: string,
    price: real,
    salePrice: Option<real>,
    quantity: int,
    images: seq<string>,
    description: Option<string>,
    selectedOptions: seq<SelectedOption>,
    isActive: bool)

  function Public(v: Variant): (p: PublicVariant)
    ensures p.productId == v.productId && p.sku == v.sku && p.price == v.price && p.salePrice == v.salePrice
    ensures p.quantity == v.quantity && p.images == v.images && p.description == v.description
    ensures p.selectedOptions == v.selectedOptions && p.isActive == v.isActive
  {
    PublicVariant(v.productId, v.sku, v.price, v.salePrice, v.quantity, v.images, v.description,
                  v.selectedOptions, v.isActive)
  }

  datatype ProductView = ProductView(product: Product, variants: map<Id, PublicVariant>)

  /**
    `viewProductService` (storefront): PRODUCT_NOT_FOUND for an unknown id,
    PRODUCT_NOT_AVAILABLE for an inactive product, otherwise the product with
    its active variants, stripped of the admin fields.
   */
  function ViewProduct(st: Store, id: Id): (r: Result<ProductView>)
    ensures r == Err(ProductNotFound) <==> id !in st.products
    ensures r == Err(ProductNotAvailable) <==> id in st.products && st.products[id].status != Active
    ensures r.Ok? ==>
              && r.value.product == st.products[id]
              && (forall v :: v in r.value.variants <==>
                    v in st.variants && st.variants[v].productId == id && st.variants[v].isActive)
              && (forall v :: v in r.value.variants ==> r.value.variants[v] == Public(st.variants[v]))
  {
    if id !in st.products then Err(ProductNotFound)
    else if st.products[id].status != Active then Err(ProductNotAvailable)
    else
      Ok(ProductView(st.products[id],
                     map v | v in st.variants && st.variants[v].productId == id && st.variants[v].isActive
                       :: Public(st.variants[v])))
  }

  /** `s` and `t` hold the same variants up to `cost` and `lowStockThreshold`. */
  ghost predicate SameUpToAdminFields(s: map<Id, Variant>, t: map<Id, Variant>) {
    && s.Keys == t.Keys
    && forall v :: v in s ==> t[v] == s[v].(cost := t[v].cost, lowStockThreshold := t[v].lowStockThreshold)
  }

  /** The storefront view does not depend on the admin fields: changing them changes nothing a customer sees. */
  lemma AdminFieldsDoNotLeak(st: Store, variants: map<Id, Variant>, id: Id)
    requires SameUpToAdminFields(st.variants, variants)
    ensures ViewProduct(st.(variants := variants), id) == ViewProduct(st, id)
  {
    if id in st.products && st.products[id].status == Active {
      var a, b := ViewProduct(st.(variants := variants), id).value.variants, ViewProduct(st, id).value.variants;
      SamePublicView(variants, st.variants, id, a, b);
    }
  }

  /** Two storefront variant maps built from stores that agree up to the admin fields are equal. */
  lemma SamePublicView(s: map<Id, Variant>, t: map<Id, Variant>, id: Id, a: map<Id, PublicVariant>, b: map<Id, PublicVariant>)
    requires SameUpToAdminFields(t, s)
    requires forall v :: v in a <==> v in s && s[v].productId == id && s[v].isActive
    requires forall v :: v in a ==> a[v] == Public(s[v])
    requires forall v :: v in b <==> v in t && t[v].productId == id && t[v].isActive
    requires forall v :: v in b ==> b[v] == Public(t[v])
    ensures a == b
  {
    forall v | v in t
      ensures s[v].productId == t[v].productId && s[v].isActive == t[v].isActive
      ensures Public(s[v]) == Public(t[v])
    {
    }
    assert a.Keys == b.Keys;
    assert forall v :: v in a ==> a[v] == b[v];
  }

  /** What the storefront shows of a product is a part of what the admin view shows. */
  lemma StorefrontWithinAdminView(st: Store, id: Id)
    requires ViewProduct(st, id).Ok?
    ensures var admin := ProductService.ViewProduct(st, id);
            && admin.Ok?
            && admin.value.product == ViewProduct(st, id).value.product
            && ViewProduct(st, id).value.variants.Keys <= admin.value.variants.Keys
            && forall v :: v in ViewProduct(st, id).value.variants ==>
                 ViewProduct(st, id).value.variants[v] == Public(admin.value.variants[v])
  {
  }

  /** `fetchAddressesService`: USER_NOT_FOUND, or the stored addresses, none when the user has no list. */
  function FetchAddresses(st: Store, userId: Id): (r: Result<seq<Address>>)
    ensures r == Err(UserNotFound) <==> userId !in st.users
    ensures r.Ok? && st.users[userId].addresses.Some? ==> r.value == st.users[userId].addresses.value
    ensures r.Ok? && st.users[userId].addresses.None? ==> r.value == []
  {
    if userId !in st.users then Err(UserNotFound) else Ok(st.users[userId].addresses.GetOr([]))
  }

  /**
    `addOrderService` of the storefront: the same steps as the admin
    placement, in the same order and with the same defaults — customer,
    then the items in turn, then the order number, the order and the address.
   */
  function AddOrder(st: Store, req: OrderService.OrderRequest, now: Timestamp, today: OrderNumber.Date, orderId: Id)
    : (out: Response<Order>)
    requires OrderNumber.ValidDate(today) && OrderService.ValidItems(req.items) && orderId !in st.orders
    ensures out.result.Err? ==> out.store == st
    ensures out.result == Err(CustomerNotFound) <==> req.customerId !in st.users
    ensures (req.customerId in st.users && OrderService.Reserve(st.products, st.variants, req.items).Err?)
              ==> out.result == Err(OrderService.Reserve(st.products, st.variants, req.items).code)
    ensures out.result.Ok? <==>
              && req.customerId in st.users
              && OrderService.Reserve(st.products, st.variants, req.items).Ok?
              && OrderNumber.Generate(today, OrderNumbers(st)) !in OrderNumbers(st)
    ensures out.result.Ok? ==>
              var o := out.result.value;
              && o.orderNumber == OrderNumber.Generate(today, OrderNumbers(st))
              && o.customerId == req.customerId && o.items == req.items
              && o.status == req.status.GetOr(Placed)
              && o.statusHistory == [StatusEntry(o.status, now, "Order created")]
              && o.expectedDeliveryDate == OrderService.DeliveryDate(req.expectedDeliveryDate, now)
              && out.store.orders == st.orders[orderId := o]
              && out.store.variants == OrderService.Reserve(st.products, st.variants, req.items).value
              && out.store.users == OrderService.RecordAddress(st.users, req.customerId, req.shippingAddress)
    ensures out.result.Ok? ==>
              && out.store.products == st.products
              && out.store.categories == st.categories
              && out.store.options == st.options
  {
    OrderService.AddOrder(st, req, now, today, orderId)
  }

  /** After a placement that gives a shipping address, the customer's address book is exactly that address. */
  lemma PlacementOverwritesAddresses(st: Store, req: OrderService.OrderRequest, now: Timestamp,
                                     today: OrderNumber.Date, orderId: Id)
    requires OrderNumber.ValidDate(today) && OrderService.ValidItems(req.items) && orderId !in st.orders
    requires req.shippingAddress.Some?
    requires AddOrder(st, req, now, today, orderId).result.Ok?
    ensures FetchAddresses(AddOrder(st, req, now, today, orderId).store, req.customerId)
              == Ok([req.shippingAddress.value])
  {
  }

  /** `viewCustomerOrderService`: the order only when it exists and belongs to the caller; ORDER_NOT_FOUND otherwise. */
  function ViewCustomerOrder(st: Store, userId: Id, orderId: Id): (r: Result<Order>)
    ensures r.Ok? <==> orderId in st.orders && st.orders[orderId].customerId == userId
    ensures r.Ok? ==> r.value == st.orders[orderId]
    ensures r.Err? ==> r.code == OrderNotFound
  {
    if orderId in st.orders && st.orders[orderId].customerId == userId then Ok(st.orders[orderId])
    else Err(OrderNotFound)
  }

  /** A placed order is visible to the customer who placed it and to nobody else. */
  lemma PlacedOrderVisibleOnlyToOwner(st: Store, req: OrderService.OrderRequest, now: Timestamp,
                                      today: OrderNumber.Date, orderId: Id, other: Id)
    requires OrderNumber.ValidDate(today) && OrderService.ValidItems(req.items) && orderId !in st.orders
    requires AddOrder(st, req, now, today, orderId).result.Ok?
    requires other != req.customerId
    ensures var out := AddOrder(st, req, now, today, orderId);
            && ViewCustomerOrder(out.store, req.customerId, orderId) == Ok(out.result.value)
            && ViewCustomerOrder(out.store, other, orderId) == Err(OrderNotFound)
  {
  }

  /** The caller's orders: `customerId` equal to the caller. */
  function OwnedBy(userId: Id): Order -> bool {
    (o: Order) => o.customerId == userId
  }

  /** The only search field of the customer's order list. */
  function OrderNumberField(): seq<Order -> string> {
    [(o: Order) => o.orderNumber]
  }

  /**
    `listCustomerOrdersService`: a page of the orders, newest first, filtered
    to the caller's own and searched by order number. `newestFirst` is the
    stored orders in creation order, newest first.
   */
  function ListCustomerOrders(newestFirst: seq<Order>, userId: Id, query: Pagination.Query)
    : (r: Pagination.Page<Order>)
    requires Pagination.ValidQuery(query)
    ensures forall i :: 0 <= i < |r.data| ==> r.data[i].customerId == userId && r.data[i] in newestFirst
    ensures Pagination.PageOf(r, Pagination.Select(newestFirst, OwnedBy(userId), OrderNumberField(), Pagination.SearchTerm(query)),
                              query.page.GetOr(Pagination.DefaultPage), query.limit.GetOr(Pagination.DefaultLimit))
  {
    var r := Pagination.GetPaginatedResults(newestFirst, query, OrderNumberField(), OwnedBy(userId));
    assert forall i :: 0 <= i < |r.data| ==> OwnedBy(userId)(r.data[i]);
    r
  }

  /**
    An order the caller has just placed is on some page of their unsearched
    order list, for any page size, once the listing reads the stored orders.
   */
  lemma PlacedOrderIsListed(st: Store, req: OrderService.OrderRequest, now: Timestamp, today: OrderNumber.Date,
                            orderId: Id, newestFirst: seq<Order>, limit: int)
    requires OrderNumber.ValidDate(today) && OrderService.ValidItems(req.items) && orderId !in st.orders
    requires AddOrder(st, req, now, today, orderId).result.Ok?
    requires forall o :: o in newestFirst <==> o in AddOrder(st, req, now, today, orderId).store.orders.Values
    requires 1 <= limit <= 100
    ensures exists page :: page >= 1 && AddOrder(st, req, now, today, orderId).result.value
              in ListCustomerOrders(newestFirst, req.customerId, Pagination.Query(Some(page), Some(limit), None)).data
  {
    var out := AddOrder(st, req, now, today, orderId);
    assert out.store.orders[orderId] == out.result.value;
    Pagination.MatchOnSomePage(newestFirst, out.result.value, OrderNumberField(), OwnedBy(req.customerId), limit);
  }

  /** Two customers' listings never share an order. */
  lemma ListingsAreDisjoint(newestFirst: seq<Order>, u1: Id, u2: Id, q1: Pagination.Query, q2: Pagination.Query)
    requires Pagination.ValidQuery(q1) && Pagination.ValidQuery(q2) && u1 != u2
    ensures var a, b := ListCustomerOrders(newestFirst, u1, q1).data, ListCustomerOrders(newestFirst, u2, q2).data;
            forall i, j :: 0 <= i < |a| && 0 <= j < |b| ==> a[i] != b[j]
  {
  }
}

=== FILE: decimal.dfy ===
/**
  Decimal text: `Number.prototype.toString`, `String.prototype.padStart` and
  `parseInt` as they are used on sequence numbers.
 */
module Decimal {
  import opened Common
  import Text

  predicate IsDigit(c: char) {
    '0' <= c <= '9'
  }

  predicate AllDigits(s: string) {
    forall i :: 0 <= i < |s| ==> IsDigit(s[i])
  }

  function DigitValue(c: char): (d: nat)
    requires IsDigit(c)
    ensures d < 10
  {
    c as int - '0' as int
  }

  function DigitChar(d: nat): (c: char)
    requires d < 10
    ensures IsDigit(c) && DigitValue(c) == d
  {
    ('0' as int + d) as char
  }

  function Pow10(k: nat): (p: nat)
    ensures p >= 1
  {
    if k == 0 then 1 else 10 * Pow10(k - 1)
  }

  /** The decimal digits of `n`, most significant first, without leading zeros. */
  function DigitsOf(n: nat): (s: string)
    ensures s != [] && AllDigits(s)
    ensures |s| > 1 ==> s[0] != '0'
    decreases n
  {
    if n < 10 then [DigitChar(n)] else DigitsOf(n / 10) + [DigitChar(n % 10)]
  }

  /** `String(k)` for an integer `k`. */
  function IntToString(k: int): string {
    if k < 0 then "-" + DigitsOf(-k) else DigitsOf(k)
  }

  /** The value of a string of decimal digits, read left to right as `parseInt` accumulates it. */
  function Parse(s: string): nat
    requires AllDigits(s)
  {
    if s == [] then 0 else 10 * Parse(s[..|s| - 1]) + DigitValue(s[|s| - 1])
  }

  /** Reading back the digits of `n` gives `n`. */
  lemma {:induction false} ParseDigitsOf(n: nat)
    ensures Parse(DigitsOf(n)) == n
    decreases n
  {
    if n >= 10 {
      var s := DigitsOf(n);
      assert s[..|s| - 1] == DigitsOf(n / 10);
      ParseDigitsOf(n / 10);
    }
  }

  /** `n` has at most `k` digits exactly when it is below 10^k. */
  lemma {:induction false} DigitsOfLength(n: nat, k: nat)
    ensures |DigitsOf(n)| <= k <==> (k >= 1 && n < Pow10(k))
    decreases n
  {
    if n >= 10 {
      if k >= 1 {
        DigitsOfLength(n / 10, k - 1);
        assert Pow10(k) == 10 * Pow10(k - 1);
      } else {
        DigitsOfLength(n / 10, 0);
      }
    } else if k >= 1 {
      assert Pow10(k) == 10 * Pow10(k - 1);
    }
  }

  /** A digit string is worth less than 10 to the power of its length. */
  lemma {:induction false} ParseBound(s: string)
    requires AllDigits(s)
    ensures Parse(s) < Pow10(|s|)
    decreases |s|
  {
    if s != [] {
      ParseBound(s[..|s| - 1]);
    }
  }

  /** Reading a digit string from its first digit. */
  lemma {:induction false} ParseCons(c: char, t: string)
    requires IsDigit(c) && AllDigits(t)
    ensures AllDigits([c] + t)
    ensures Parse([c] + t) == DigitValue(c) * Pow10(|t|) + Parse(t)
    decreases |t|
  {
    var s := [c] + t;
    if t != [] {
      var t', d := t[..|t| - 1], DigitValue(t[|t| - 1]);
      assert s[..|s| - 1] == [c] + t';
      ParseCons(c, t');
      assert Parse(s) == 10 * Parse([c] + t') + d;
      assert Parse(t) == 10 * Parse(t') + d;
      ShiftDigit(DigitValue(c), Pow10(|t'|), Parse(t'), d);
    } else {
      assert s[..|s| - 1] == [];
    }
  }

  /** Appending a digit shifts the value, and a leading term, one place left. */
  lemma ShiftDigit(x: nat, p: nat, y: nat, d: nat)
    ensures 10 * (x * p + y) + d == x * (10 * p) + (10 * y + d)
  {
  }

  /** Leading zeros do not change the value. */
  lemma {:induction false} ParseLeadingZeros(z: string, t: string)
    requires forall i :: 0 <= i < |z| ==> z[i] == '0'
    requires AllDigits(t)
    ensures AllDigits(z + t) && Parse(z + t) == Parse(t)
    decreases |z|
  {
    if z != [] {
      assert z + t == [z[0]] + (z[1..] + t);
      ParseLeadingZeros(z[1..], t);
      ParseCons('0', z[1..] + t);
      assert DigitValue('0') == 0;
    } else {
      assert z + t == t;
    }
  }

  /** For digit strings of one length, lexicographic order is numeric order. */
  lemma {:induction false} LexOrderIsNumeric(a: string, b: string)
    requires AllDigits(a) && AllDigits(b) && |a| == |b|
    ensures Text.LexLt(a, b) ==> Parse(a) < Parse(b)
    decreases |a|
  {
    if a != [] && Text.LexLt(a, b) {
      var a', b' := a[1..], b[1..];
      assert a == [a[0]] + a' && b == [b[0]] + b';
      ParseCons(a[0], a');
      ParseCons(b[0], b');
      ParseBound(a');
      if a[0] < b[0] {
        FirstDigitDominates(DigitValue(a[0]), DigitValue(b[0]), Pow10(|a'|), Parse(a'), Parse(b'));
      } else {
        assert a[0] == b[0] && a' != b';
        LexOrderIsNumeric(a', b');
      }
    }
  }

  lemma FirstDigitDominates(x: nat, y: nat, p: nat, ra: nat, rb: nat)
    requires x < y && ra < p
    ensures x * p + ra < y * p + rb
  {
    var d := y - x;
    assert y * p == x * p + d * p;
    assert d * p == p + (d - 1) * p;
  }

  /** For digit strings of one length, `LexLe` and `<=` on values agree in both directions. */
  lemma LexLeIffValueLe(a: string, b: string)
    requires AllDigits(a) && AllDigits(b) && |a| == |b|
    ensures Text.LexLe(a, b) <==> Parse(a) <= Parse(b)
  {
    LexOrderIsNumeric(a, b);
    LexOrderIsNumeric(b, a);
    Text.LexLeTotal(a, b);
    Text.LexLeReflexive(a);
  }

  /** `s.padStart(width, c)`: `c` repeated in front of `s` up to `width`; never truncates. */
  function PadStart(s: string, width: nat, c: char): (r: string)
    ensures |r| == if |s| >= width then |s| else width
    ensures r[|r| - |s|..] == s
    ensures forall i :: 0 <= i < |r| - |s| ==> r[i] == c
  {
    if |s| >= width then s else seq(width - |s|, _ => c) + s
  }

  /** Length of the longest run of digits at the front of `s`. */
  function DigitRun(s: string): (n: nat)
    ensures n <= |s| && AllDigits(s[..n])
    ensures n < |s| ==> !IsDigit(s[n])
  {
    if s == [] || !IsDigit(s[0]) then 0
    else
      var m := DigitRun(s[1..]);
      assert s[..1 + m] == [s[0]] + s[1..][..m];
      1 + m
  }

  /**
    `parseInt(s)` on the decimal strings the order-number generator writes:
    leading whitespace, an optional sign, then the longest run of digits;
    `None` is `NaN` (no digit at that position). A "0x" prefix, which makes
    `parseInt` without a radix read hexadecimal, is not modelled.
   */
  function ParseInt(s: string): (r: Option<int>)
    ensures s != [] && AllDigits(s) ==> r == Some(Parse(s))
    ensures (s != [] && !Text.IsWhitespace(s[0]) && s[0] != '+' && s[0] != '-' && !IsDigit(s[0]))
              ==> r == None
  {
    var t := s[Text.LeadingSpace(s)..];
    var signed := t != [] && (t[0] == '-' || t[0] == '+');
    var body := if signed then t[1..] else t;
    var n := DigitRun(body);
    if n == 0 then None
    else if signed && t[0] == '-' then
      var v: int := -(Parse(body[..n]) as int);
      Some(v)
    else
      assert s != [] && AllDigits(s) ==> body[..n] == s;
      Some(Parse(body[..n]))
  }
}

=== FILE: option_service.dfy ===
/**
  Product options (src/services/option.services.ts): adding, editing and
  soft-deleting options such as "Size", with their lists of allowed values.
 */
module OptionService {
  import opened Common
  import opened Store
  import opened Text

  function OptionName(o: ProductOption): string {
    o.optionName
  }

  /** Each value trimmed, and the values that trim to nothing dropped, order kept. */
  function CleanValues(values: seq<string>): (r: seq<string>)
    ensures |r| <= |values|
    ensures forall i :: 0 <= i < |r| ==> r[i] != [] && IsTrimmed(r[i])
    decreases |values|
  {
    if values == [] then []
    else
      var t := Trim(values[0]);
      (if t == [] then [] else [t]) + CleanValues(values[1..])
  }

  /** A value survives cleaning exactly when it is the non-empty trim of some input value. */
  lemma {:induction false} CleanValuesMembership(values: seq<string>, x: string)
    ensures x in CleanValues(values) <==> x != [] && exists i :: 0 <= i < |values| && Trim(values[i]) == x
    decreases |values|
  {
    if values != [] {
      CleanValuesMembership(values[1..], x);
      if x != [] && Trim(values[0]) != x && (exists i :: 0 <= i < |values| && Trim(values[i]) == x) {
        var i :| 0 <= i < |values| && Trim(values[i]) == x;
        assert Trim(values[1..][i - 1]) == x;
      }
      if x != [] && (exists i :: 0 <= i < |values[1..]| && Trim(values[1..][i]) == x) {
        var i :| 0 <= i < |values[1..]| && Trim(values[1..][i]) == x;
        assert Trim(values[i + 1]) == x;
      }
    }
  }

  /** Cleaning is applied value by value: it distributes over concatenation. */
  lemma {:induction false} CleanValuesAppend(a: seq<string>, b: seq<string>)
    ensures CleanValues(a + b) == CleanValues(a) + CleanValues(b)
    decreases |a|
  {
    if a != [] {
      assert (a + b)[1..] == a[1..] + b;
      CleanValuesAppend(a[1..], b);
    } else {
      assert a + b == b;
    }
  }

  /** Cleaning a cleaned list changes nothing. */
  lemma {:induction false} CleanValuesIdempotent(values: seq<string>)
    ensures CleanValues(CleanValues(values)) == CleanValues(values)
    decreases |values|
  {
    if values != [] {
      var t := Trim(values[0]);
      var head := if t == [] then [] else [t];
      CleanValuesAppend(head, CleanValues(values[1..]));
      CleanValuesIdempotent(values[1..]);
      if t != [] {
        TrimIdempotent(values[0]);
        assert head[1..] == [];
      }
    }
  }

  /** Cleaning leaves nothing exactly when every value is blank. */
  lemma {:induction false} CleanValuesEmptyIff(values: seq<string>)
    ensures CleanValues(values) == [] <==> forall i :: 0 <= i < |values| ==> Trim(values[i]) == []
    decreases |values|
  {
    if values != [] {
      var rest := values[1..];
      CleanValuesEmptyIff(rest);
      if Trim(values[0]) != [] {
        assert CleanValues(values)[0] == Trim(values[0]);
      } else {
        assert CleanValues(values) == CleanValues(rest);
        if CleanValues(rest) == [] {
          forall i | 1 <= i < |values| ensures Trim(values[i]) == [] {
            assert values[i] == rest[i - 1];
          }
        } else {
          var j :| 0 <= j < |rest| && Trim(rest[j]) != [];
          assert values[j + 1] == rest[j];
        }
      }
    }
  }

  /** The body of an add request. */
  datatype OptionInput = OptionInput(optionName: string, values: seq<string>, isActive: Option<bool>)

  /**
    `addOptionService`: OPTION_EXISTS when a stored option has the trimmed name
    up to case; then INVALID_VALUES when no value survives cleaning; otherwise
    the option is stored with the trimmed name, the cleaned values, and
    `isActive` defaulting to true. A name that trims to nothing fails the
    schema's `required` validator on save, which the service reports as
    INTERNAL_ERROR. `newId` is the new document's id.
   */
  function AddOption(st: Store, input: OptionInput, newId: Id): (out: Response<ProductOption>)
    requires newId !in st.options
    ensures out.result.Err? ==> out.store == st
    ensures out.result == Err(OptionExists) <==> NameInUse(st.options, OptionName, Trim(input.optionName), None)
    ensures out.result == Err(InvalidValues) <==>
              !NameInUse(st.options, OptionName, Trim(input.optionName), None) && CleanValues(input.values) == []
    ensures out.result.Ok? <==>
              && !NameInUse(st.options, OptionName, Trim(input.optionName), None)
              && CleanValues(input.values) != []
              && Trim(input.optionName) != []
    ensures out.result.Ok? ==>
              && out.store == st.(options := st.options[newId := out.result.value])
              && out.result.value.optionName == Trim(input.optionName)
              && out.result.value.values == CleanValues(input.values)
              && out.result.value.isActive == input.isActive.GetOr(true)
  {
    var name := Trim(input.optionName);
    if NameInUse(st.options, OptionName, name, None) then Response(st, Err(OptionExists))
    else
      var values := CleanValues(input.values);
      if values == [] then Response(st, Err(InvalidValues))
      else if name == [] then Response(st, Err(InternalError))
      else
        var o := ProductOption(name, values, input.isActive.GetOr(true));
        Response(st.(options := st.options[newId := o]), Ok(o))
  }

  /** The body of an edit request; absent fields are left alone. */
  datatype OptionPatch = OptionPatch(optionName: Option<string>, values: Option<seq<string>>, isActive: Option<bool>)

  /** A name is applied only when it is given and non-empty (truthy). */
  predicate NameGiven(name: Option<string>) {
    name.Some? && name.value != []
  }

  /** The option with the patch applied. */
  function Patched(o: ProductOption, patch: OptionPatch): ProductOption {
    o.(optionName := if NameGiven(patch.optionName) then Trim(patch.optionName.value) else o.optionName,
       values := if patch.values.Some? then CleanValues(patch.values.value) else o.values,
       isActive := patch.isActive.GetOr(o.isActive))
  }

  /**
    `editOptionService`: OPTION_NOT_FOUND for an unknown id; a given name
    must not be used by another option (OPTION_EXISTS); given values must not
    clean to nothing (INVALID_VALUES); a given name that trims to nothing
    fails the update's `required` validator (INTERNAL_ERROR); then exactly the
    given fields change.
   */
  function EditOption(st: Store, id: Id, patch: OptionPatch): (out: Response<ProductOption>)
    ensures id !in st.options ==> out == Response(st, Err(OptionNotFound))
    ensures out.result.Err? ==> out.store == st
    ensures id in st.options ==>
              (out.result.Ok? <==>
                 && !(NameGiven(patch.optionName)
                      && NameInUse(st.options, OptionName, Trim(patch.optionName.value), Some(id)))
                 && !(patch.values.Some? && CleanValues(patch.values.value) == [])
                 && !(NameGiven(patch.optionName) && Trim(patch.optionName.value) == []))
    ensures id in st.options ==>
              (out.result == Err(OptionExists) <==>
                 NameGiven(patch.optionName) && NameInUse(st.options, OptionName, Trim(patch.optionName.value), Some(id)))
    ensures id in st.options ==>
              (out.result == Err(InvalidValues) <==>
                 && !(NameGiven(patch.optionName)
                      && NameInUse(st.options, OptionName, Trim(patch.optionName.value), Some(id)))
                 && patch.values.Some? && CleanValues(patch.values.value) == [])
    ensures out.result.Ok? ==>
              var before, o := st.options[id], out.result.value;
              && out.store == st.(options := st.options[id := o])
              && (NameGiven(patch.optionName) ==> o.optionName == Trim(patch.optionName.value))
              && (!NameGiven(patch.optionName) ==> o.optionName == before.optionName)
              && (patch.values.Some? ==> o.values == CleanValues(patch.values.value) && o.values != [])
              && (patch.values.None? ==> o.values == before.values)
              && o.isActive == patch.isActive.GetOr(before.isActive)
  {
    if id !in st.options then Response(st, Err(OptionNotFound))
    else if NameGiven(patch.optionName) && NameInUse(st.options, OptionName, Trim(patch.optionName.value), Some(id))
    then Response(st, Err(OptionExists))
    else if patch.values.Some? && CleanValues(patch.values.value) == [] then Response(st, Err(InvalidValues))
    else if NameGiven(patch.optionName) && Trim(patch.optionName.value) == [] then Response(st, Err(InternalError))
    else
      var o := Patched(st.options[id], patch);
      Response(st.(options := st.options[id := o]), Ok(o))
  }

  /** `deleteOptionService`: a soft delete; the option stays, marked inactive. */
  function DeleteOption(st: Store, id: Id): (out: Response<()>)
    ensures id !in st.options ==> out == Response(st, Err(OptionNotFound))
    ensures id in st.options ==>
              && out.result.Ok?
              && out.store == st.(options := st.options[id := st.options[id].(isActive := false)])
  {
    if id !in st.options then Response(st, Err(OptionNotFound))
    else Response(st.(options := st.options[id := st.options[id].(isActive := false)]), Ok(()))
  }

  /** An edit with no fields leaves the store as it was and returns the stored option. */
  lemma EmptyEditChangesNothing(st: Store, id: Id)
    requires id in st.options
    ensures EditOption(st, id, OptionPatch(None, None, None)) == Response(st, Ok(st.options[id]))
  {
    assert st.options[id := st.options[id]] == st.options;
  }

  /** Applying the same edit twice is applying it once. */
  lemma EditOptionIdempotent(st: Store, id: Id, patch: OptionPatch)
    requires EditOption(st, id, patch).result.Ok?
    ensures var once := EditOption(st, id, patch);
            EditOption(once.store, id, patch) == once
  {
    var once := EditOption(st, id, patch);
    var o := once.result.value;
    PatchTwice(st.options[id], patch);
    assert once.store.options[id := o] == once.store.options;
  }

  /** A patch applied to its own result changes nothing more. */
  lemma PatchTwice(o: ProductOption, patch: OptionPatch)
    ensures Patched(Patched(o, patch), patch) == Patched(o, patch)
  {
    if NameGiven(patch.optionName) {
      TrimIdempotent(patch.optionName.value);
    }
  }

  /** Deleting twice is deleting once. */
  lemma DeleteOptionIdempotent(st: Store, id: Id)
    ensures var once := DeleteOption(st, id);
            DeleteOption(once.store, id).store == once.store
  {
    if id in st.options {
      var once := DeleteOption(st, id).store;
      assert once.options[id := once.options[id].(isActive := false)] == once.options;
    }
  }

  /** One stored option as adding and editing leave it: a non-empty trimmed name and clean, non-empty values. */
  predicate OptionWellFormed(o: ProductOption) {
    o.optionName != [] && IsTrimmed(o.optionName) && o.values != [] && CleanValues(o.values) == o.values
  }

  /** What adding, editing and deleting keep: names distinct up to case and every option well formed. */
  ghost predicate OptionsWellFormed(options: map<Id, ProductOption>) {
    && DistinctNames(options, OptionName)
    && forall id :: id in options ==> OptionWellFormed(options[id])
  }

  /** Storing a well-formed option under `id` whose name no other option uses keeps the store well formed. */
  lemma StoreKeepsWellFormed(options: map<Id, ProductOption>, id: Id, o: ProductOption)
    requires OptionsWellFormed(options) && OptionWellFormed(o)
    requires !NameInUse(options, OptionName, o.optionName, Some(id))
    ensures OptionsWellFormed(options[id := o])
  {
    DistinctNamesAfterUpdate(options, OptionName, id, o);
  }

  lemma AddOptionKeepsWellFormed(st: Store, input: OptionInput, newId: Id)
    requires newId !in st.options && OptionsWellFormed(st.options)
    ensures OptionsWellFormed(AddOption(st, input, newId).store.options)
  {
    var out := AddOption(st, input, newId);
    if out.result.Ok? {
      TrimIdempotent(input.optionName);
      CleanValuesIdempotent(input.values);
      assert OptionWellFormed(out.result.value);
      StoreKeepsWellFormed(st.options, newId, out.result.value);
    }
  }

  lemma EditOptionKeepsWellFormed(st: Store, id: Id, patch: OptionPatch)
    requires OptionsWellFormed(st.options)
    ensures OptionsWellFormed(EditOption(st, id, patch).store.options)
  {
    var out := EditOption(st, id, patch);
    if out.result.Ok? {
      var before, o := st.options[id], out.result.value;
      if NameGiven(patch.optionName) {
        TrimIdempotent(patch.optionName.value);
        assert o.optionName == Trim(patch.optionName.value);
      } else {
        OwnNameNotInUse(st.options, OptionName, id);
        assert o.optionName == before.optionName;
      }
      if patch.values.Some? {
        CleanValuesIdempotent(patch.values.value);
      }
      StoreKeepsWellFormed(st.options, id, o);
    }
  }

  lemma DeleteOptionKeepsWellFormed(st: Store, id: Id)
    requires OptionsWellFormed(st.options)
    ensures OptionsWellFormed(DeleteOption(st, id).store.options)
  {
    if id in st.options {
      StoreKeepsWellFormed(st.options, id, st.options[id].(isActive := false));
    }
  }
}

=== FILE: order_number.dfy ===
/**
  Order-number generation (`generateOrderNumber`): "ORD", the date as YYMMDD,
  then a four-digit daily sequence one past the sequence of the greatest stored
  number carrying the same date prefix. The clock is the `Date` parameter and
  the database lookup is the set of stored order numbers.
 */
module OrderNumber {
  import opened Common
  import opened Text
  import opened Decimal

  /** A calendar date as the local clock reports it (month 1..12, day 1..31). */
  datatype Date = Date(year: nat, month: nat, day: nat)

  predicate ValidDate(d: Date) {
    1 <= d.month <= 12 && 1 <= d.day <= 31
  }

  /** `year.toString().slice(-2)`: the last two characters of the decimal year. */
  function YearDigits(year: nat): string {
    var s := DigitsOf(year);
    if |s| >= 2 then s[|s| - 2..] else s
  }

  /** `ORD${yy}${mm}${dd}` with month and day padded to two digits. */
  function DatePrefix(d: Date): string
    requires ValidDate(d)
  {
    "ORD" + YearDigits(d.year) + Pad2(d.month) + Pad2(d.day)
  }

  /** `n.toString().padStart(2, "0")`. */
  function Pad2(n: nat): string {
    PadStart(DigitsOf(n), 2, '0')
  }

  /**
    The stored number a descending sort on `orderNumber`, filtered by the
    anchored prefix pattern, returns first: the lexicographically greatest
    number that starts with `prefix`.
   */
  function LastWithPrefix(existing: set<string>, prefix: string): (r: Option<string>)
    ensures r.None? <==> forall n :: n in existing ==> !StartsWith(n, prefix)
    ensures r.Some? ==> r.value in existing && StartsWith(r.value, prefix)
    ensures r.Some? ==> forall n :: n in existing && StartsWith(n, prefix) ==> LexLe(n, r.value)
  {
    var matching := set n | n in existing && StartsWith(n, prefix);
    assert forall n :: n in existing && StartsWith(n, prefix) ==> n in matching;
    if matching == {} then None else Some(Greatest(matching))
  }

  /** `s.slice(-4)`. */
  function LastFour(s: string): string {
    if |s| >= 4 then s[|s| - 4..] else s
  }

  /** The new sequence: 1 when no number carries today's prefix, else `parseInt(last.slice(-4)) + 1`; `None` is `NaN`. */
  function NextSequence(last: Option<string>): Option<int> {
    match last
    case None => Some(1)
    case Some(n) =>
      match ParseInt(LastFour(n))
      case None => None
      case Some(v) => Some(v + 1)
  }

  /** `sequence.toString().padStart(4, "0")`; `NaN` prints as "NaN". */
  function SequenceSuffix(sq: Option<int>): string {
    match sq
    case None => PadStart("NaN", 4, '0')
    case Some(k) => PadStart(IntToString(k), 4, '0')
  }

  function Generate(d: Date, existing: set<string>): string
    requires ValidDate(d)
  {
    NumberAfter(DatePrefix(d), existing)
  }

  /** The number the generator produces for `prefix` given the stored numbers. */
  function NumberAfter(prefix: string, existing: set<string>): string {
    prefix + SequenceSuffix(NextSequence(LastWithPrefix(existing, prefix)))
  }

  /** A number of the expected shape for `prefix`: the prefix then exactly four digits. */
  predicate WellFormedFor(n: string, prefix: string) {
    StartsWith(n, prefix) && |n| == |prefix| + 4 && AllDigits(n[|prefix|..])
  }

  // ----- Lemmas -----

  /** Zero-padding `n` to `w` digits gives exactly `w` digits that read back as `n`. */
  lemma PadRoundTrip(n: nat, w: nat)
    requires w >= 1 && n < Pow10(w)
    ensures |PadStart(DigitsOf(n), w, '0')| == w
    ensures AllDigits(PadStart(DigitsOf(n), w, '0'))
    ensures Parse(PadStart(DigitsOf(n), w, '0')) == n
  {
    DigitsOfLength(n, w);
    ZeroPadKeepsValue(DigitsOf(n), w);
    ParseDigitsOf(n);
  }

  /** Zero-padding a digit string to `w` characters keeps its value. */
  lemma ZeroPadKeepsValue(s: string, w: nat)
    requires AllDigits(s) && |s| <= w
    ensures |PadStart(s, w, '0')| == w
    ensures AllDigits(PadStart(s, w, '0'))
    ensures Parse(PadStart(s, w, '0')) == Parse(s)
  {
    var r := PadStart(s, w, '0');
    var z := r[..|r| - |s|];
    assert r == z + s;
    ParseLeadingZeros(z, s);
  }

  /** The value of a concatenation of digit strings. */
  lemma {:induction false} ParseAppend(a: string, b: string)
    requires AllDigits(a) && AllDigits(b)
    ensures AllDigits(a + b)
    ensures Parse(a + b) == Parse(a) * Pow10(|b|) + Parse(b)
    decreases |b|
  {
    if b == [] {
      assert a + b == a;
    } else {
      var b' := b[..|b| - 1];
      var d := DigitValue(b[|b| - 1]);
      assert (a + b)[..|a + b| - 1] == a + b';
      assert (a + b)[|a + b| - 1] == b[|b| - 1];
      ParseAppend(a, b');
      assert Parse(a + b) == 10 * Parse(a + b') + d;
      assert Parse(b) == 10 * Parse(b') + d;
      ShiftDigit(Parse(a), Pow10(|b'|), Parse(b'), d);
    }
  }

  lemma ModHundred(x: nat, q: nat, r: nat)
    requires r < 100 && x == q * 100 + r
    ensures x % 100 == r
  {
  }

  /** The two year characters are the year modulo 100 (for a year of two or more digits). */
  lemma YearDigitsValue(year: nat)
    requires year >= 10
    ensures |YearDigits(year)| == 2 && AllDigits(YearDigits(year))
    ensures Parse(YearDigits(year)) == year % 100
  {
    var s := DigitsOf(year);
    DigitsOfLength(year, 1);
    var head, tail := s[..|s| - 2], s[|s| - 2..];
    assert s == head + tail;
    ParseAppend(head, tail);
    ParseDigitsOf(year);
    ParseBound(tail);
    ModHundred(year, Parse(head), Parse(tail));
  }

  /** The prefix is "ORD", the two year characters, then month and day as two digits each. */
  lemma DatePrefixLayout(d: Date)
    requires ValidDate(d) && d.year >= 10
    ensures var p := DatePrefix(d);
      && |p| == 9 && p[..3] == "ORD"
      && p[3..5] == YearDigits(d.year)
      && p[5..7] == Pad2(d.month)
      && p[7..9] == Pad2(d.day)
  {
    YearDigitsValue(d.year);
    PadRoundTrip(d.month, 2);
    PadRoundTrip(d.day, 2);
    Slices("ORD", YearDigits(d.year), Pad2(d.month), Pad2(d.day));
  }

  lemma Slices(a: string, b: string, c: string, e: string)
    requires |a| == 3 && |b| == 2 && |c| == 2 && |e| == 2
    ensures var s := a + b + c + e;
      |s| == 9 && s[..3] == a && s[3..5] == b && s[5..7] == c && s[7..9] == e
  {
  }

  /** A sequence in 0..9999 prints as four digits that parse back to it. */
  lemma SuffixRoundTrip(k: int)
    requires 0 <= k <= 9999
    ensures |SequenceSuffix(Some(k))| == 4
    ensures AllDigits(SequenceSuffix(Some(k)))
    ensures Parse(SequenceSuffix(Some(k))) == k
    ensures ParseInt(SequenceSuffix(Some(k))) == Some(k)
  {
    assert Pow10(4) == 10000;
    PadRoundTrip(k, 4);
  }

  /** The first order of a day gets sequence 0001. */
  lemma FirstOrderOfDay(d: Date, existing: set<string>)
    requires ValidDate(d)
    requires forall n :: n in existing ==> !StartsWith(n, DatePrefix(d))
    ensures Generate(d, existing) == DatePrefix(d) + "0001"
  {
    FreshWhenFirst(DatePrefix(d), existing);
  }

  /** Otherwise the sequence is one more than the last four digits of the greatest prefixed number. */
  lemma SequenceFollowsLast(d: Date, existing: set<string>, last: string)
    requires ValidDate(d)
    requires LastWithPrefix(existing, DatePrefix(d)) == Some(last)
    requires |last| >= 4 && AllDigits(LastFour(last))
    ensures var k: int := Parse(LastFour(last)) + 1;
            Generate(d, existing) == DatePrefix(d) + SequenceSuffix(Some(k))
  {
    NextAfterLast(last);
  }

  /** Four trailing digits are read back with `parseInt` and incremented. */
  lemma NextAfterLast(last: string)
    requires |last| >= 4 && AllDigits(LastFour(last))
    ensures NextSequence(Some(last)) == Some(Parse(LastFour(last)) + 1)
  {
    var f := LastFour(last);
    assert |f| == 4;
    assert ParseInt(f) == Some(Parse(f));
  }

  /** A four-digit remainder worth more than the greatest one's is above every remainder. */
  lemma AboveGreatestRemainder(p: string, u: string, t: string, s: string)
    requires AllDigits(u) && AllDigits(t) && AllDigits(s) && |u| == |t| == |s|
    requires LexLe(p + u, p + t) && Parse(t) < Parse(s)
    ensures LexLe(u, s) && u != s
  {
    LexLeCommonPrefix(p, u, t);
    LexLeIffValueLe(u, t);
    LexLeIffValueLe(u, s);
  }

  /** A common prefix keeps a strict order. */
  lemma LexLtCommonPrefix(p: string, u: string, s: string)
    requires LexLe(u, s) && u != s
    ensures LexLt(p + u, p + s)
  {
    LexLeCommonPrefix(p, u, s);
    assert (p + u)[|p|..] == u;
  }

  /** Splitting a string that starts with `p`. */
  lemma SplitPrefix(n: string, p: string)
    requires StartsWith(n, p)
    ensures n == p + n[|p|..]
  {
  }

  /** Stored numbers carrying `p` all have the expected shape and a sequence below 9999. */
  ghost predicate RoomAfter(p: string, existing: set<string>) {
    forall n :: n in existing && StartsWith(n, p) ==> WellFormedFor(n, p) && Parse(n[|p|..]) < 9999
  }

  lemma FreshWhenFirst(p: string, existing: set<string>)
    requires LastWithPrefix(existing, p).None?
    ensures NumberAfter(p, existing) == p + "0001"
    ensures WellFormedFor(NumberAfter(p, existing), p)
    ensures NumberAfter(p, existing) !in existing
  {
    assert DigitsOf(1) == "1";
    var r := p + "0001";
    assert r[..|p|] == p && r[|p|..] == "0001";
  }

  lemma FreshAfterLast(p: string, existing: set<string>, g: string)
    requires RoomAfter(p, existing)
    requires LastWithPrefix(existing, p) == Some(g)
    ensures WellFormedFor(NumberAfter(p, existing), p)
    ensures forall n :: n in existing && StartsWith(n, p) ==> LexLt(n, NumberAfter(p, existing))
  {
    var t := g[|p|..];
    assert LastFour(g) == t;
    var k: int := Parse(t) + 1;
    assert NextSequence(LastWithPrefix(existing, p)) == Some(k);
    var s := SequenceSuffix(Some(k));
    var r := p + s;
    SuffixRoundTrip(k);
    assert r[..|p|] == p && r[|p|..] == s;
    forall n | n in existing && StartsWith(n, p)
      ensures LexLt(n, r)
    {
      SplitPrefix(n, p);
      SplitPrefix(g, p);
      AboveGreatestRemainder(p, n[|p|..], t, s);
      LexLtCommonPrefix(p, n[|p|..], s);
    }
  }

  /**
    Uniqueness under sequential calls: when every stored number carrying today's
    prefix has the expected shape and a sequence below 9999, the new number has
    the same shape, is greater than each of them, and so is not stored yet.
   */
  lemma GenerateIsFresh(d: Date, existing: set<string>)
    requires ValidDate(d)
    requires RoomAfter(DatePrefix(d), existing)
    ensures Generate(d, existing) !in existing
    ensures WellFormedFor(Generate(d, existing), DatePrefix(d))
    ensures forall n :: n in existing && StartsWith(n, DatePrefix(d)) ==> LexLt(n, Generate(d, existing))
  {
    NumberAfterIsFresh(DatePrefix(d), existing);
  }

  lemma NumberAfterIsFresh(p: string, existing: set<string>)
    requires RoomAfter(p, existing)
    ensures NumberAfter(p, existing) !in existing
    ensures WellFormedFor(NumberAfter(p, existing), p)
    ensures forall n :: n in existing && StartsWith(n, p) ==> LexLt(n, NumberAfter(p, existing))
  {
    var r := NumberAfter(p, existing);
    match LastWithPrefix(existing, p)
    case None =>
      FreshWhenFirst(p, existing);
    case Some(g) =>
      FreshAfterLast(p, existing, g);
  }

  /** Once `r` is stored, it is the greatest number carrying its prefix. */
  lemma NewNumberIsLast(p: string, existing: set<string>, r: string)
    requires StartsWith(r, p)
    requires forall n :: n in existing && StartsWith(n, p) ==> LexLt(n, r)
    ensures LastWithPrefix(existing + {r}, p) == Some(r)
  {
    var g := LastWithPrefix(existing + {r}, p).value;
    LexLeReflexive(r);
    if g != r {
      assert LexLe(r, g) && LexLt(g, r);
      LexLeAntisymmetric(g, r);
    }
  }

  /**
    Two orders placed one after the other on the same day: the second number
    carries the same prefix and the first one's sequence plus one.
   */
  lemma ConsecutiveNumbers(d: Date, existing: set<string>, p: string, first: string)
    requires ValidDate(d) && p == DatePrefix(d)
    requires RoomAfter(p, existing)
    requires first == Generate(d, existing)
    ensures WellFormedFor(first, p)
    ensures var k: int := Parse(first[|p|..]) + 1;
            Generate(d, existing + {first}) == p + SequenceSuffix(Some(k))
  {
    NumberAfterIsFresh(p, existing);
    NumberAfterLast(p, existing, first);
  }

  /** The number generated once `first`, above every stored number with prefix `p`, has been stored. */
  lemma NumberAfterLast(p: string, existing: set<string>, first: string)
    requires WellFormedFor(first, p)
    requires forall n :: n in existing && StartsWith(n, p) ==> LexLt(n, first)
    ensures var k: int := Parse(first[|p|..]) + 1;
            NumberAfter(p, existing + {first}) == p + SequenceSuffix(Some(k))
  {
    var e := existing + {first};
    NewNumberIsLast(p, existing, first);
    var t := first[|p|..];
    assert LastFour(first) == t;
    NextOfWellFormed(first, t);
    var k: int := Parse(t) + 1;
    var sq := NextSequence(LastWithPrefix(e, p));
    assert sq == Some(k);
    assert NumberAfter(p, e) == p + SequenceSuffix(sq);
  }

  /** The sequence after a number ending in four digits is their value plus one. */
  lemma NextOfWellFormed(n: string, t: string)
    requires |t| == 4 && LastFour(n) == t && AllDigits(t)
    ensures var k: int := Parse(t) + 1;
            NextSequence(Some(n)) == Some(k)
  {
    assert ParseInt(t) == Some(Parse(t));
  }

  /**
    Padding never truncates: sequence 10000 prints as five digits, and its last
    four read back as 0, so the four-digit layout only holds up to 9999.
   */
  lemma SequenceOverflow()
    ensures SequenceSuffix(Some(10000)) == "10000"
    ensures Parse(LastFour("10000")) == 0
  {
    TenThousandDigits();
    assert LastFour("10000") == "0000";
    ParseFourZeros();
  }

  lemma TenThousandDigits()
    ensures DigitsOf(10000) == "10000"
  {
    assert DigitsOf(1) == "1";
    assert DigitsOf(10) == "10";
    assert DigitsOf(100) == "100";
    assert DigitsOf(1000) == "1000";
  }

  lemma ParseFourZeros()
    ensures AllDigits("0000") && Parse("0000") == 0
  {
    ParseLeadingZeros("0000", "");
    assert "0000" + "" == "0000";
  }

  lemma GreatestOfOverflowPair(p: string)
    ensures LastWithPrefix({p + "9999", p + "10000"}, p) == Some(p + "9999")
  {
    var a, b := p + "9999", p + "10000";
    assert a[..|p|] == p && b[..|p|] == p;
    LexLeCommonPrefix(p, "9999", "10000");
    assert !LexLe("9999", "10000");
  }

  lemma ParseNines()
    ensures ParseInt("9999") == Some(9999)
  {
    var s := "9999";
    assert AllDigits(s);
    assert s[..3] == "999" && "999"[..2] == "99" && "99"[..1] == "9" && "9"[..0] == "";
    assert Parse("9") == 9;
    assert Parse("99") == 99;
    assert Parse("999") == 999;
    assert Parse(s) == 9999;
  }

  /**
    Once a day has sequence 10000, the greatest stored number in string order is
    still the one ending in 9999, so the generator hands out the 10000 number again.
   */
  lemma SequenceRepeatsAfterOverflow(d: Date, existing: set<string>)
    requires ValidDate(d)
    requires existing == {DatePrefix(d) + "9999", DatePrefix(d) + "10000"}
    ensures Generate(d, existing) == DatePrefix(d) + "10000"
    ensures Generate(d, existing) in existing
  {
    var p := DatePrefix(d);
    GreatestOfOverflowPair(p);
    var a := p + "9999";
    assert LastFour(a) == "9999";
    ParseNines();
    assert NextSequence(Some(a)) == Some(10000);
    SequenceOverflow();
  }
}

=== FILE: order_service.dfy ===
/**
  The order lifecycle of src/services/order.services.ts: placement with stock
  reservation, the status state machine, and deletion with stock restoration.
  Each service call is one atomic transition of the store: a failed call
  returns the store it was given, which is what the aborted transaction leaves.
 */
module OrderService {
  import opened Common
  import opened Store
  import OrderNumber

  /** The body of an order placement request; `None` fields take the source's defaults. */
  datatype OrderRequest = OrderRequest(
    customerId: Id,
    items: seq<OrderItem>,
    subtotal: real,
    shippingCost: Option<real>,
    tax: Option<real>,
    discount: Option<real>,
    totalAmount: real,
    paymentMethod: Option<PaymentMethod>,
    paymentStatus: Option<PaymentStatus>,
    shippingAddress: Option<Address>,
    status: Option<OrderStatus>,
    expectedDeliveryDate: Option<Timestamp>)

  /** What the request validator guarantees: at least one item, each with quantity at least 1. */
  predicate ValidItems(items: seq<OrderItem>) {
    |items| > 0 && PositiveQuantities(items)
  }

  predicate PositiveQuantities(items: seq<OrderItem>) {
    forall i :: 0 <= i < |items| ==> items[i].quantity >= 1
  }

  /** Two days in milliseconds: the default delivery estimate. */
  const DeliveryLeadTime: int := 2 * 24 * 60 * 60 * 1000

  /** Total quantity the items request from variant `v`. */
  function Demand(items: seq<OrderItem>, v: Id): int {
    if items == [] then 0
    else (if items[0].variantId == v then items[0].quantity else 0) + Demand(items[1..], v)
  }

  lemma {:induction false} DemandNonNegative(items: seq<OrderItem>, v: Id)
    requires forall i :: 0 <= i < |items| ==> items[i].quantity >= 0
    ensures Demand(items, v) >= 0
    decreases |items|
  {
    if items != [] {
      DemandNonNegative(items[1..], v);
    }
  }

  /** `v` with `delta` added to its stock, every other field as it was. */
  function Adjust(vr: Variant, delta: int): Variant {
    vr.(quantity := vr.quantity + delta)
  }

  /** `after` is `before` with the items' total demand taken from each variant, and nothing else changed. */
  predicate Taken(before: map<Id, Variant>, after: map<Id, Variant>, items: seq<OrderItem>) {
    && after.Keys == before.Keys
    && forall v :: v in before ==> after[v] == Adjust(before[v], -Demand(items, v))
  }

  /** `after` is `before` with the items' total demand given back to each variant, and nothing else changed. */
  predicate Returned(before: map<Id, Variant>, after: map<Id, Variant>, items: seq<OrderItem>) {
    && after.Keys == before.Keys
    && forall v :: v in before ==> after[v] == Adjust(before[v], Demand(items, v))
  }

  // ----- Placement: the reservation loop -----

  /**
    The item loop of placement: for each item in order, the product must exist,
    then the variant, then its current stock must not be below the requested
    quantity (`variant.quantity < item.quantity` rejects); the stock is then
    decremented at once, so later items for the same variant see the reduced
    stock. The first failure ends the loop.
   */
  function Reserve(products: map<Id, Product>, variants: map<Id, Variant>, items: seq<OrderItem>)
    : (r: Result<map<Id, Variant>>)
    ensures r.Ok? ==> Taken(variants, r.value, items)
    ensures r.Err? ==> r.code == ProductNotFound || r.code == VariantNotFound || r.code == InsufficientStock
    decreases |items|
  {
    if items == [] then Ok(variants)
    else
      var it := items[0];
      if it.productId !in products then Err(ProductNotFound)
      else if it.variantId !in variants then Err(VariantNotFound)
      else if variants[it.variantId].quantity < it.quantity then Err(InsufficientStock)
      else Reserve(products, variants[it.variantId := Adjust(variants[it.variantId], -it.quantity)], items[1..])
  }

  /** Every item names a stored product and a stored variant. */
  ghost predicate Resolves(products: map<Id, Product>, variants: map<Id, Variant>, items: seq<OrderItem>) {
    forall i :: 0 <= i < |items| ==> items[i].productId in products && items[i].variantId in variants
  }

  /** Every variant the items request from holds at least their total. */
  ghost predicate Covers(variants: map<Id, Variant>, items: seq<OrderItem>) {
    forall v :: v in variants && Demand(items, v) > 0 ==> Demand(items, v) <= variants[v].quantity
  }

  /**
    Reservation succeeds exactly when every item resolves and every variant's
    stock covers the total requested from it: checking item by item against the
    running stock is the same as checking the totals.
   */
  lemma {:induction false} ReserveSucceedsIff(products: map<Id, Product>, variants: map<Id, Variant>, items: seq<OrderItem>)
    requires PositiveQuantities(items)
    ensures Reserve(products, variants, items).Ok? <==> Resolves(products, variants, items) && Covers(variants, items)
    decreases |items|
  {
    if items != [] {
      var it, rest := items[0], items[1..];
      assert forall i :: 1 <= i < |items| ==> items[i] == rest[i - 1];
      if it.productId in products && it.variantId in variants {
        var w := it.variantId;
        DemandNonNegative(rest, w);
        var vs' := variants[w := Adjust(variants[w], -it.quantity)];
        if variants[w].quantity >= it.quantity {
          ReserveSucceedsIff(products, vs', rest);
          ReserveStep(products, variants, items, vs');
          CoversStep(variants, items, vs');
          assert Resolves(products, variants, items) <==> Resolves(products, vs', rest);
        } else {
          assert Demand(items, w) > variants[w].quantity;
        }
      } else {
        assert !Resolves(products, variants, items) by { assert items[0] == it; }
      }
    }
  }

  /** After the first item takes its quantity, the rest must be covered by what is left. */
  lemma CoversStep(variants: map<Id, Variant>, items: seq<OrderItem>, vs': map<Id, Variant>)
    requires items != [] && items[0].variantId in variants && items[0].quantity >= 1
    requires items[0].quantity <= variants[items[0].variantId].quantity
    requires PositiveQuantities(items[1..])
    requires vs' == variants[items[0].variantId := Adjust(variants[items[0].variantId], -items[0].quantity)]
    ensures Covers(variants, items) <==> Covers(vs', items[1..])
  {
    var w := items[0].variantId;
    DemandNonNegative(items[1..], w);
    forall v | v in variants
      ensures (Demand(items, v) > 0 ==> Demand(items, v) <= variants[v].quantity)
          <==> (Demand(items[1..], v) > 0 ==> Demand(items[1..], v) <= vs'[v].quantity)
    {
    }
  }

  /** Stock the item at position `i` sees: what the earlier items left of its variant. */
  function Available(variants: map<Id, Variant>, items: seq<OrderItem>, i: nat): int
    requires i < |items| && items[i].variantId in variants
  {
    variants[items[i].variantId].quantity - Demand(items[..i], items[i].variantId)
  }

  /** Item `j` passes all three checks. */
  ghost predicate Passes(products: map<Id, Product>, variants: map<Id, Variant>, items: seq<OrderItem>, j: nat)
    requires j < |items|
  {
    && items[j].productId in products
    && items[j].variantId in variants
    && items[j].quantity <= Available(variants, items, j)
  }

  /** Item `i` is the first to fail, and fails with `code`. */
  ghost predicate FirstFailure(products: map<Id, Product>, variants: map<Id, Variant>, items: seq<OrderItem>,
                               i: nat, code: ErrorCode)
  {
    && i < |items|
    && (forall j :: 0 <= j < i ==> Passes(products, variants, items, j))
    && (if items[i].productId !in products then code == ProductNotFound
        else if items[i].variantId !in variants then code == VariantNotFound
        else items[i].quantity > Available(variants, items, i) && code == InsufficientStock)
  }

  lemma DemandOfPrefixStep(items: seq<OrderItem>, j: nat, v: Id)
    requires 0 < |items| && j < |items|
    ensures Demand(items[..j + 1], v)
         == (if items[0].variantId == v then items[0].quantity else 0) + Demand(items[1..][..j], v)
  {
    assert items[..j + 1][1..] == items[1..][..j];
  }

  /** Shifting the failure of the tail (run on the decremented stock) back to the whole list. */
  lemma FirstFailureShift(products: map<Id, Product>, variants: map<Id, Variant>, items: seq<OrderItem>,
                          i: nat, code: ErrorCode)
    requires 0 < |items| && items[0].productId in products && items[0].variantId in variants
    requires items[0].quantity <= variants[items[0].variantId].quantity
    requires FirstFailure(products,
                          variants[items[0].variantId := Adjust(variants[items[0].variantId], -items[0].quantity)],
                          items[1..], i, code)
    ensures FirstFailure(products, variants, items, i + 1, code)
  {
    var w := items[0].variantId;
    var vs' := variants[w := Adjust(variants[w], -items[0].quantity)];
    var rest := items[1..];
    assert Demand(items[..0], w) == 0;
    forall j | 1 <= j <= i + 1 && items[j].variantId in variants
      ensures Available(variants, items, j) == Available(vs', rest, j - 1)
    {
      DemandOfPrefixStep(items, j - 1, items[j].variantId);
      assert items[j] == rest[j - 1];
    }
    forall j | 0 <= j < i + 1 ensures Passes(products, variants, items, j) {
      if j > 0 {
        assert items[j] == rest[j - 1];
        assert Passes(products, vs', rest, j - 1);
      }
    }
    assert items[i + 1] == rest[i];
  }

  /**
    The checks short-circuit in order: reservation fails with `code` exactly
    when some item is the first to fail and fails with that code.
   */
  lemma {:induction false} ReserveFailsAtFirstFailure(products: map<Id, Product>, variants: map<Id, Variant>,
                                                    items: seq<OrderItem>)
    ensures forall code :: Reserve(products, variants, items) == Err(code) ==>
              exists i :: FirstFailure(products, variants, items, i, code)
    decreases |items|
  {
    if items != [] {
      var it := items[0];
      assert Demand(items[..0], it.variantId) == 0;
      if it.productId in products && it.variantId in variants && variants[it.variantId].quantity >= it.quantity {
        var vs' := variants[it.variantId := Adjust(variants[it.variantId], -it.quantity)];
        ReserveFailsAtFirstFailure(products, vs', items[1..]);
        forall code | Reserve(products, variants, items) == Err(code)
          ensures exists i :: FirstFailure(products, variants, items, i, code)
        {
          var i :| FirstFailure(products, vs', items[1..], i, code);
          FirstFailureShift(products, variants, items, i, code);
        }
      } else {
        forall code | Reserve(products, variants, items) == Err(code)
          ensures exists i :: FirstFailure(products, variants, items, i, code)
        {
          assert FirstFailure(products, variants, items, 0, code);
        }
      }
    }
  }

  /** The converse: a first failure determines the error reservation reports. */
  lemma {:induction false} FirstFailureDeterminesError(products: map<Id, Product>, variants: map<Id, Variant>,
                                                      items: seq<OrderItem>, i: nat, code: ErrorCode)
    requires FirstFailure(products, variants, items, i, code)
    ensures Reserve(products, variants, items) == Err(code)
    decreases |items|, 1
  {
    if i == 0 {
      FailsAtHead(products, variants, items, code);
    } else {
      FirstFailureUnshift(products, variants, items, i, code);
      FailsLater(products, variants, items, i, code);
    }
  }

  /** The first item passes and the rest fails first at item `i - 1` on the decremented stock: reservation fails there. */
  lemma {:induction false} FailsLater(products: map<Id, Product>, variants: map<Id, Variant>,
                                      items: seq<OrderItem>, i: nat, code: ErrorCode)
    requires i > 0 && items != [] && items[0].productId in products && items[0].variantId in variants
    requires items[0].quantity <= variants[items[0].variantId].quantity
    requires FirstFailure(products,
                          variants[items[0].variantId := Adjust(variants[items[0].variantId], -items[0].quantity)],
                          items[1..], i - 1, code)
    ensures Reserve(products, variants, items) == Err(code)
    decreases |items|, 0
  {
    var it := items[0];
    var vs' := variants[it.variantId := Adjust(variants[it.variantId], -it.quantity)];
    FirstFailureDeterminesError(products, vs', items[1..], i - 1, code);
    ReserveStep(products, variants, items, vs');
  }

  /** When the first item fails, reservation stops there with that item's error. */
  lemma FailsAtHead(products: map<Id, Product>, variants: map<Id, Variant>, items: seq<OrderItem>, code: ErrorCode)
    requires FirstFailure(products, variants, items, 0, code)
    ensures Reserve(products, variants, items) == Err(code)
  {
    assert Demand(items[..0], items[0].variantId) == 0;
  }

  /** When the first item passes, reservation continues with the rest on the decremented stock. */
  lemma ReserveStep(products: map<Id, Product>, variants: map<Id, Variant>, items: seq<OrderItem>,
                    rest: map<Id, Variant>)
    requires items != [] && items[0].productId in products && items[0].variantId in variants
    requires items[0].quantity <= variants[items[0].variantId].quantity
    requires rest == variants[items[0].variantId := Adjust(variants[items[0].variantId], -items[0].quantity)]
    ensures Reserve(products, variants, items) == Reserve(products, rest, items[1..])
  {
  }

  /** A later first failure of the whole list is the first failure of the tail, run on the decremented stock. */
  lemma FirstFailureUnshift(products: map<Id, Product>, variants: map<Id, Variant>, items: seq<OrderItem>,
                            i: nat, code: ErrorCode)
    requires FirstFailure(products, variants, items, i, code) && i > 0
    ensures items[0].productId in products && items[0].variantId in variants
    ensures items[0].quantity <= variants[items[0].variantId].quantity
    ensures FirstFailure(products,
                         variants[items[0].variantId := Adjust(variants[items[0].variantId], -items[0].quantity)],
                         items[1..], i - 1, code)
  {
    var it := items[0];
    assert Demand(items[..0], it.variantId) == 0;
    assert Passes(products, variants, items, 0);
    var vs' := variants[it.variantId := Adjust(variants[it.variantId], -it.quantity)];
    var rest := items[1..];
    forall j | 0 <= j < i && items[j + 1].variantId in variants
      ensures Available(vs', rest, j) == Available(variants, items, j + 1)
    {
      DemandOfPrefixStep(items, j, items[j + 1].variantId);
      assert rest[j] == items[j + 1];
    }
    forall j | 0 <= j < i - 1 ensures Passes(products, vs', rest, j) {
      assert rest[j] == items[j + 1];
      assert Passes(products, variants, items, j + 1);
    }
    assert rest[i - 1] == items[i];
  }

  /**
    Stock restoration on deletion: each item's quantity goes back to its
    variant; an update addressed to a variant that no longer exists does nothing.
   */
  function Restock(variants: map<Id, Variant>, items: seq<OrderItem>): (r: map<Id, Variant>)
    ensures Returned(variants, r, items)
    decreases |items|
  {
    if items == [] then variants
    else
      var w := items[0].variantId;
      var next := if w in variants then variants[w := Adjust(variants[w], items[0].quantity)] else variants;
      Restock(next, items[1..])
  }

  /** Restoring the items of a successful reservation gives back the stock it started from. */
  lemma RestockUndoesReserve(products: map<Id, Product>, variants: map<Id, Variant>, items: seq<OrderItem>)
    requires Reserve(products, variants, items).Ok?
    ensures Restock(Reserve(products, variants, items).value, items) == variants
  {
    RestockUndoesTaking(variants, Reserve(products, variants, items).value, items);
  }

  /** Restocking a map from which exactly the items' demand was taken gives back the original. */
  lemma RestockUndoesTaking(m0: map<Id, Variant>, m1: map<Id, Variant>, items: seq<OrderItem>)
    requires Taken(m0, m1, items)
    ensures Restock(m1, items) == m0
  {
    AdjustBack(m0, m1, Restock(m1, items), items);
  }

  // ----- Placement -----

  /**
    The `expectedDeliveryDate` of a new order: the requested date when one is
    given, else two days on. The request validator admits only a non-empty
    ISO 8601 string, which is always truthy, so any given date is kept, the
    epoch included.
   */
  function DeliveryDate(requested: Option<Timestamp>, now: Timestamp): (t: Timestamp)
    ensures requested.Some? ==> t == requested.value
    ensures requested.None? ==> t == now + DeliveryLeadTime
  {
    if requested.Some? then requested.value else now + DeliveryLeadTime
  }

  /** The order document placement creates, with the request's defaults filled in. */
  function NewOrder(req: OrderRequest, number: string, now: Timestamp): Order {
    var status := req.status.GetOr(Placed);
    Order(number, req.customerId, req.items, req.subtotal,
          req.shippingCost.GetOr(0.0), req.tax.GetOr(0.0), req.discount.GetOr(0.0), req.totalAmount,
          req.paymentMethod.GetOr(Cod), req.paymentStatus.GetOr(Pending), req.shippingAddress,
          status, [StatusEntry(status, now, "Order created")],
          DeliveryDate(req.expectedDeliveryDate, now))
  }

  /** The customer's address list after placement: replaced by the shipping address when one is given. */
  function RecordAddress(users: map<Id, User>, customerId: Id, shipping: Option<Address>): (r: map<Id, User>)
    requires customerId in users
    ensures r.Keys == users.Keys
    ensures forall u :: u in users && u != customerId ==> r[u] == users[u]
    ensures shipping.Some? ==> r[customerId] == users[customerId].(addresses := Some([shipping.value]))
    ensures shipping.None? ==> r == users
  {
    if shipping.Some? then users[customerId := users[customerId].(addresses := Some([shipping.value]))] else users
  }

  /**
    Order placement (`addOrderService`): the customer must exist, then every
    item passes the reservation loop, then the generated order number must not
    be taken (the unique index on `orderNumber`; a duplicate key aborts with
    INTERNAL_ERROR). `today` is the calendar date of `now`; `orderId` is the new
    document's id.
   */
  function AddOrder(st: Store, req: OrderRequest, now: Timestamp, today: OrderNumber.Date, orderId: Id)
    : (out: Response<Order>)
    requires OrderNumber.ValidDate(today) && ValidItems(req.items) && orderId !in st.orders
    ensures out.result.Err? ==> out.store == st
    ensures out.result == Err(CustomerNotFound) <==> req.customerId !in st.users
    ensures (req.customerId in st.users && Reserve(st.products, st.variants, req.items).Err?)
              ==> out.result == Err(Reserve(st.products, st.variants, req.items).code)
    ensures out.result.Ok? <==>
              && req.customerId in st.users
              && Reserve(st.products, st.variants, req.items).Ok?
              && OrderNumber.Generate(today, OrderNumbers(st)) !in OrderNumbers(st)
    ensures out.result.Ok? ==>
              && out.result.value.orderNumber == OrderNumber.Generate(today, OrderNumbers(st))
              && out.result.value.orderNumber !in OrderNumbers(st)
    ensures out.result.Ok? ==>
              var o := out.result.value;
              && o.customerId == req.customerId && o.items == req.items
              && o.status == req.status.GetOr(Placed)
              && o.statusHistory == [StatusEntry(o.status, now, "Order created")]
              && o.expectedDeliveryDate == DeliveryDate(req.expectedDeliveryDate, now)
    ensures out.result.Ok? ==> out.store.orders == st.orders[orderId := out.result.value]
    ensures out.result.Ok? ==> out.store.variants == Reserve(st.products, st.variants, req.items).value
    ensures out.result.Ok? ==>
              && out.store.users == RecordAddress(st.users, req.customerId, req.shippingAddress)
              && out.store.products == st.products
              && out.store.categories == st.categories
              && out.store.options == st.options
  {
    if req.customerId !in st.users then Response(st, Err(CustomerNotFound))
    else
      var reserved := Reserve(st.products, st.variants, req.items);
      if reserved.Err? then Response(st, Err(reserved.code))
      else
        var number := OrderNumber.Generate(today, OrderNumbers(st));
        if number in OrderNumbers(st) then Response(st, Err(InternalError))
        else
          var o := NewOrder(req, number, now);
          Response(Commit(st, orderId, o, reserved.value), Ok(o))
  }

  /** The store once placement commits: the order inserted, the reserved stock, the address recorded. */
  function Commit(st: Store, orderId: Id, o: Order, variants: map<Id, Variant>): (st': Store)
    requires o.customerId in st.users
    ensures st'.orders == st.orders[orderId := o] && st'.variants == variants
    ensures st'.users == RecordAddress(st.users, o.customerId, o.shippingAddress)
    ensures st'.products == st.products && st'.categories == st.categories && st'.options == st.options
  {
    st.(orders := st.orders[orderId := o],
        variants := variants,
        users := RecordAddress(st.users, o.customerId, o.shippingAddress))
  }

  // ----- The status state machine -----

  /** The allowed transitions: placed -> confirmed | cancelled, confirmed -> shipped | cancelled, shipped -> delivered. */
  predicate CanTransition(from: OrderStatus, to: OrderStatus) {
    match from
    case Placed => to == Confirmed || to == Cancelled
    case Confirmed => to == Shipped || to == Cancelled
    case Shipped => to == Delivered
    case Delivered => false
    case Cancelled => false
  }

  /** How far along the lifecycle a status is. */
  function Rank(s: OrderStatus): nat {
    match s
    case Placed => 0
    case Confirmed => 1
    case Shipped => 2
    case Delivered => 3
    case Cancelled => 3
  }

  /** Every allowed transition moves forward; delivered and cancelled are terminal; only unshipped orders cancel. */
  lemma TransitionsMoveForward(a: OrderStatus, b: OrderStatus)
    ensures CanTransition(a, b) ==> Rank(a) < Rank(b)
    ensures a == Delivered || a == Cancelled ==> !CanTransition(a, b)
    ensures CanTransition(a, Cancelled) <==> a == Placed || a == Confirmed
  {
  }

  /** A run of statuses, each reached from the previous one by an allowed transition. */
  ghost predicate IsLifecycle(run: seq<OrderStatus>) {
    forall i :: 0 < i < |run| ==> CanTransition(run[i - 1], run[i])
  }

  /** The rank grows by at least one per step, so a lifecycle visits at most four statuses. */
  lemma {:induction false} LifecycleIsShort(run: seq<OrderStatus>)
    requires run != [] && IsLifecycle(run)
    ensures Rank(run[|run| - 1]) >= Rank(run[0]) + |run| - 1
    ensures |run| <= 4
    decreases |run|
  {
    if |run| > 1 {
      var init := run[..|run| - 1];
      assert IsLifecycle(init) by {
        forall i | 0 < i < |init| ensures CanTransition(init[i - 1], init[i]) {
          assert init[i - 1] == run[i - 1] && init[i] == run[i];
        }
      }
      LifecycleIsShort(init);
      TransitionsMoveForward(run[|run| - 2], run[|run| - 1]);
    }
  }

  /** The note of a history entry: the given note when non-empty, else "Status changed to <status>". */
  function StatusNote(note: Option<string>, status: OrderStatus): (n: string)
    ensures note.Some? && note.value != "" ==> n == note.value
    ensures note.None? || note.value == "" ==> n == "Status changed to " + StatusName(status)
  {
    if note.Some? && note.value != "" then note.value else "Status changed to " + StatusName(status)
  }

  /**
    The order after an allowed status change. The status body's delivery date
    is not validated; it is read as a JSON number, so 0 is falsy and leaves the
    date as it was.
   */
  function Advance(o: Order, status: OrderStatus, note: Option<string>, expected: Option<Timestamp>,
                   now: Timestamp): Order
  {
    o.(status := status,
       statusHistory := o.statusHistory + [StatusEntry(status, now, StatusNote(note, status))],
       expectedDeliveryDate := if expected.Some? && expected.value != 0 then expected.value
                               else o.expectedDeliveryDate)
  }

  /**
    `updateOrderStatusService`: the order must exist and the transition be
    allowed; the new status is set and an entry appended to the history. The
    expected delivery date changes only when a truthy one is given.
   */
  function UpdateOrderStatus(st: Store, id: Id, status: OrderStatus, note: Option<string>,
                             expected: Option<Timestamp>, now: Timestamp): (out: Response<Order>)
    ensures id !in st.orders ==> out == Response(st, Err(OrderNotFound))
    ensures id in st.orders ==> (out.result.Ok? <==> CanTransition(st.orders[id].status, status))
    ensures id in st.orders && !CanTransition(st.orders[id].status, status) ==>
              out == Response(st, Err(InvalidStatusTransition))
    ensures out.result.Err? ==> out.store == st
    ensures out.result.Err? ==> out.result.code == OrderNotFound || out.result.code == InvalidStatusTransition
    ensures out.result.Ok? ==>
              var before, o := st.orders[id], out.result.value;
              && out.store == st.(orders := st.orders[id := o])
              && o.status == status
              && o.statusHistory == before.statusHistory + [StatusEntry(status, now, StatusNote(note, status))]
              && o.expectedDeliveryDate == (if expected.Some? && expected.value != 0 then expected.value
                                            else before.expectedDeliveryDate)
              && o.(status := before.status, statusHistory := before.statusHistory,
                    expectedDeliveryDate := before.expectedDeliveryDate) == before
  {
    if id !in st.orders then Response(st, Err(OrderNotFound))
    else if !CanTransition(st.orders[id].status, status) then Response(st, Err(InvalidStatusTransition))
    else
      var o := Advance(st.orders[id], status, note, expected, now);
      Response(st.(orders := st.orders[id := o]), Ok(o))
  }

  // ----- Deletion -----

  /**
    `deleteOrderService`: only placed and cancelled orders may be deleted; a
    placed order's items go back to stock first, a cancelled order's do not.
   */
  function DeleteOrder(st: Store, id: Id): (out: Response<()>)
    ensures id !in st.orders ==> out == Response(st, Err(OrderNotFound))
    ensures (id in st.orders && st.orders[id].status != Placed && st.orders[id].status != Cancelled)
              ==> out == Response(st, Err(CannotDeleteOrder))
    ensures out.result.Ok? <==> id in st.orders && (st.orders[id].status == Placed || st.orders[id].status == Cancelled)
    ensures out.result.Err? ==> out.store == st
    ensures out.result.Ok? ==>
              && out.store.orders == st.orders - {id}
              && (st.orders[id].status == Placed ==> Returned(st.variants, out.store.variants, st.orders[id].items))
              && (st.orders[id].status == Cancelled ==> out.store.variants == st.variants)
              && out.store == st.(orders := out.store.orders, variants := out.store.variants)
  {
    if id !in st.orders then Response(st, Err(OrderNotFound))
    else
      var o := st.orders[id];
      if o.status != Placed && o.status != Cancelled then Response(st, Err(CannotDeleteOrder))
      else
        var variants := if o.status != Cancelled then Restock(st.variants, o.items) else st.variants;
        Response(st.(orders := st.orders - {id}, variants := variants), Ok(()))
  }

  // ----- Properties across calls -----

  /** Stock never goes negative. */
  predicate StockNonNegative(variants: map<Id, Variant>) {
    forall v :: v in variants ==> variants[v].quantity >= 0
  }

  /** Every stored order has positive item quantities and a history whose last entry is its status. */
  ghost predicate OrdersWellFormed(orders: map<Id, Order>) {
    forall id :: id in orders ==>
      && PositiveQuantities(orders[id].items)
      && |orders[id].statusHistory| > 0
      && orders[id].statusHistory[|orders[id].statusHistory| - 1].status == orders[id].status
  }

  /** No two stored orders share an order number. */
  ghost predicate UniqueNumbers(orders: map<Id, Order>) {
    forall a, b :: a in orders && b in orders && a != b ==> orders[a].orderNumber != orders[b].orderNumber
  }

  ghost predicate Invariant(st: Store) {
    StockNonNegative(st.variants) && OrdersWellFormed(st.orders) && UniqueNumbers(st.orders)
  }

  /** A successful reservation never drives stock below zero. */
  lemma ReserveKeepsStockNonNegative(products: map<Id, Product>, variants: map<Id, Variant>, items: seq<OrderItem>)
    requires StockNonNegative(variants) && PositiveQuantities(items)
    requires Reserve(products, variants, items).Ok?
    ensures StockNonNegative(Reserve(products, variants, items).value)
  {
    ReserveSucceedsIff(products, variants, items);
    var r := Reserve(products, variants, items).value;
    forall v | v in r ensures r[v].quantity >= 0 {
      DemandNonNegative(items, v);
    }
  }

  /**
    The defaults of a placed order: shipping cost, tax and discount 0, payment
    by cash on delivery and pending, the amounts and the shipping address as
    given.
   */
  lemma PlacedOrderDefaults(st: Store, req: OrderRequest, now: Timestamp, today: OrderNumber.Date, orderId: Id)
    requires OrderNumber.ValidDate(today) && ValidItems(req.items) && orderId !in st.orders
    requires AddOrder(st, req, now, today, orderId).result.Ok?
    ensures var o := AddOrder(st, req, now, today, orderId).result.value;
            && o.shippingCost == (if req.shippingCost.Some? then req.shippingCost.value else 0.0)
            && o.tax == (if req.tax.Some? then req.tax.value else 0.0)
            && o.discount == (if req.discount.Some? then req.discount.value else 0.0)
            && o.paymentMethod == Cod
            && o.paymentStatus == (if req.paymentStatus.Some? then req.paymentStatus.value else Pending)
            && o.subtotal == req.subtotal && o.totalAmount == req.totalAmount
            && o.shippingAddress == req.shippingAddress
  {
  }

  /** The number of a placed order differs from every stored one. */
  lemma PlacedNumberIsNew(st: Store, req: OrderRequest, now: Timestamp, today: OrderNumber.Date, orderId: Id)
    requires OrderNumber.ValidDate(today) && ValidItems(req.items) && orderId !in st.orders
    requires AddOrder(st, req, now, today, orderId).result.Ok?
    ensures forall a :: a in st.orders ==>
              st.orders[a].orderNumber != AddOrder(st, req, now, today, orderId).result.value.orderNumber
  {
  }

  lemma AddOrderPreservesInvariant(st: Store, req: OrderRequest, now: Timestamp, today: OrderNumber.Date, orderId: Id)
    requires OrderNumber.ValidDate(today) && ValidItems(req.items) && orderId !in st.orders
    requires Invariant(st)
    ensures Invariant(AddOrder(st, req, now, today, orderId).store)
  {
    var out := AddOrder(st, req, now, today, orderId);
    if out.result.Ok? {
      var o := out.result.value;
      ReserveKeepsStockNonNegative(st.products, st.variants, req.items);
      PlacedNumberIsNew(st, req, now, today, orderId);
      InsertKeepsOrdersInvariant(st.orders, orderId, o);
    }
  }

  /** Inserting a well-formed order under a fresh id, with a new number, keeps the order part of the invariant. */
  lemma InsertKeepsOrdersInvariant(orders: map<Id, Order>, id: Id, o: Order)
    requires OrdersWellFormed(orders) && UniqueNumbers(orders) && id !in orders
    requires PositiveQuantities(o.items) && |o.statusHistory| > 0
    requires o.statusHistory[|o.statusHistory| - 1].status == o.status
    requires forall a :: a in orders ==> orders[a].orderNumber != o.orderNumber
    ensures OrdersWellFormed(orders[id := o]) && UniqueNumbers(orders[id := o])
  {
  }

  lemma UpdateOrderStatusPreservesInvariant(st: Store, id: Id, status: OrderStatus, note: Option<string>,
                                            expected: Option<Timestamp>, now: Timestamp)
    requires Invariant(st)
    ensures Invariant(UpdateOrderStatus(st, id, status, note, expected, now).store)
  {
    var out := UpdateOrderStatus(st, id, status, note, expected, now);
    if out.result.Ok? {
      ReplaceOrderKeepsInvariant(st, id, out.result.value);
    }
  }

  /** Replacing an order by one with the same items and number and a history ending in its status keeps the invariant. */
  lemma ReplaceOrderKeepsInvariant(st: Store, id: Id, o: Order)
    requires Invariant(st) && id in st.orders
    requires o.items == st.orders[id].items && o.orderNumber == st.orders[id].orderNumber
    requires |o.statusHistory| > 0 && o.statusHistory[|o.statusHistory| - 1].status == o.status
    ensures Invariant(st.(orders := st.orders[id := o]))
  {
  }

  lemma DeleteOrderPreservesInvariant(st: Store, id: Id)
    requires Invariant(st)
    ensures Invariant(DeleteOrder(st, id).store)
  {
    var out := DeleteOrder(st, id);
    if out.result.Ok? {
      forall v | v in st.variants ensures out.store.variants[v].quantity >= 0 {
        DemandNonNegative(st.orders[id].items, v);
      }
    }
  }

  /** Adding back what was taken from every variant restores the original stock map. */
  lemma AdjustBack(m0: map<Id, Variant>, m1: map<Id, Variant>, m2: map<Id, Variant>, items: seq<OrderItem>)
    requires Taken(m0, m1, items) && Returned(m1, m2, items)
    ensures m2 == m0
  {
    forall v | v in m0 ensures m2[v] == m0[v] {
      assert m2[v] == Adjust(Adjust(m0[v], -Demand(items, v)), Demand(items, v));
    }
  }

  /** Deleting a just-placed order gives back exactly the stock and the orders there were before. */
  lemma PlaceThenDeleteRestoresStock(st: Store, req: OrderRequest, now: Timestamp, today: OrderNumber.Date, orderId: Id)
    requires OrderNumber.ValidDate(today) && ValidItems(req.items) && orderId !in st.orders
    requires req.status.GetOr(Placed) == Placed
    requires AddOrder(st, req, now, today, orderId).result.Ok?
    ensures var placed := AddOrder(st, req, now, today, orderId).store;
            var deleted := DeleteOrder(placed, orderId);
            && deleted.result.Ok?
            && deleted.store.variants == st.variants
            && deleted.store.orders == st.orders
  {
    var out := AddOrder(st, req, now, today, orderId);
    DeleteUndoesReservation(st, out.store, orderId, out.result.value);
  }

  lemma DeleteUndoesReservation(st: Store, placed: Store, orderId: Id, o: Order)
    requires orderId !in st.orders && placed.orders == st.orders[orderId := o] && o.status == Placed
    requires Taken(st.variants, placed.variants, o.items)
    ensures var deleted := DeleteOrder(placed, orderId);
            deleted.result.Ok? && deleted.store.variants == st.variants && deleted.store.orders == st.orders
  {
    var deleted := DeleteOrder(placed, orderId).store;
    assert deleted.orders == st.orders;
    AdjustBack(st.variants, placed.variants, deleted.variants, o.items);
  }

  /**
    Cancelling an order and then deleting it never returns its items to stock:
    the quantities reserved at placement stay out of the inventory.
   */
  lemma CancelThenDeleteKeepsStockOut(st: Store, id: Id, note: Option<string>, expected: Option<Timestamp>,
                                      now: Timestamp)
    requires id in st.orders && CanTransition(st.orders[id].status, Cancelled)
    ensures var cancelled := UpdateOrderStatus(st, id, Cancelled, note, expected, now).store;
            var deleted := DeleteOrder(cancelled, id);
            deleted.result.Ok? && deleted.store.variants == st.variants && deleted.store.orders == st.orders - {id}
  {
  }

  /** When the day's sequence has room, the generated number is fresh and placement cannot collide. */
  lemma PlacementNeverCollides(st: Store, req: OrderRequest, now: Timestamp, today: OrderNumber.Date, orderId: Id)
    requires OrderNumber.ValidDate(today) && ValidItems(req.items) && orderId !in st.orders
    requires OrderNumber.RoomAfter(OrderNumber.DatePrefix(today), OrderNumbers(st))
    ensures AddOrder(st, req, now, today, orderId).result != Err(InternalError)
  {
    OrderNumber.GenerateIsFresh(today, OrderNumbers(st));
  }

  /**
    Once a day's numbers have run past 9999 (both "...9999" and "...10000"
    stored), the generator keeps proposing "...10000" and every further
    placement that day fails on the unique index, leaving the store unchanged.
   */
  lemma PlacementFailsAfterOverflow(st: Store, req: OrderRequest, now: Timestamp, today: OrderNumber.Date, orderId: Id)
    requires OrderNumber.ValidDate(today) && ValidItems(req.items) && orderId !in st.orders
    requires OrderNumbers(st) == {OrderNumber.DatePrefix(today) + "9999", OrderNumber.DatePrefix(today) + "10000"}
    requires req.customerId in st.users && Reserve(st.products, st.variants, req.items).Ok?
    ensures AddOrder(st, req, now, today, orderId) == Response(st, Err(InternalError))
  {
    OrderNumber.SequenceRepeatsAfterOverflow(today, OrderNumbers(st));
  }
}

=== FILE: pagination.dfy ===
/**
  `getPaginatedResults` of src/helper/pagination.helper.ts: the filter built
  from the additional filters and an optional search over some fields, and the
  page arithmetic over the matching documents in newest-first order.
 */
module Pagination {
  import opened Common
  import Text

  /** The query string: `page` and `limit` as the integers they parse to, `search` as given; `None` when absent. */
  datatype Query = Query(page: Option<int>, limit: Option<int>, search: Option<string>)

  /** What the request validators admit: a page of at least 1 and a limit between 1 and 100. */
  predicate ValidQuery(q: Query) {
    && (q.page.Some? ==> q.page.value >= 1)
    && (q.limit.Some? ==> 1 <= q.limit.value <= 100)
  }

  const DefaultPage: int := 1
  const DefaultLimit: int := 10

  datatype PageInfo = PageInfo(
    currentPage: int,
    totalPages: nat,
    totalItems: nat,
    itemsPerPage: int,
    hasNextPage: bool,
    hasPrevPage: bool)

  datatype Page<D> = Page(data: seq<D>, pagination: PageInfo)

  /** `Math.ceil(n / d)` for naturals. */
  function CeilDiv(n: nat, d: nat): (q: nat)
    requires d > 0
    ensures n <= q * d
    ensures q > 0 ==> (q - 1) * d < n
    ensures q == 0 <==> n == 0
  {
    var q := (n + d - 1) / d;
    var r := (n + d - 1) % d;
    assert n + d - 1 == q * d + r;
    assert (q - 1) * d == q * d - d;
    q
  }

  /** `term` occurs in `field` at position `k`, ignoring case. */
  predicate OccursAt(field: string, term: string, k: int) {
    0 <= k && k + |term| <= |field| && Text.EqualsIgnoreCase(field[k..k + |term|], term)
  }

  /**
    The `$regex` test with option "i": `term` occurs somewhere in `field`,
    ignoring case (the term taken literally).
   */
  predicate ContainsIgnoreCase(field: string, term: string) {
    exists k :: 0 <= k <= |field| - |term| && OccursAt(field, term, k)
  }

  /** The trimmed search term; an absent term is empty. */
  function SearchTerm(q: Query): (t: string)
    ensures Text.IsTrimmed(t)
  {
    if q.search.Some? then Text.Trim(q.search.value) else ""
  }

  /**
    The filter: the additional filters, and, when the search term is non-empty
    and there are search fields, an OR over the fields of the search test.
   */
  predicate Selected<D>(doc: D, additional: D -> bool, fields: seq<D -> string>, term: string) {
    && additional(doc)
    && (term == [] || fields == [] || exists i :: 0 <= i < |fields| && ContainsIgnoreCase(fields[i](doc), term))
  }

  /** The matching documents, in their given order. */
  function Select<D(==,!new)>(docs: seq<D>, additional: D -> bool, fields: seq<D -> string>, term: string): (r: seq<D>)
    ensures |r| <= |docs|
    ensures forall i :: 0 <= i < |r| ==> Selected(r[i], additional, fields, term)
    ensures forall d :: multiset(r)[d] == if Selected(d, additional, fields, term) then multiset(docs)[d] else 0
    decreases |docs|
  {
    if docs == [] then []
    else
      var rest := Select(docs[1..], additional, fields, term);
      assert docs == [docs[0]] + docs[1..];
      if Selected(docs[0], additional, fields, term) then [docs[0]] + rest else rest
  }

  /** One document is kept exactly when it matches. */
  lemma SelectSingleton<D(!new)>(d: D, additional: D -> bool, fields: seq<D -> string>, term: string)
    ensures Select([d], additional, fields, term) == if Selected(d, additional, fields, term) then [d] else []
  {
    assert [d][1..] == [];
  }

  /**
    The filter keeps the query's order: selecting from a concatenation is
    selecting from each part, in the same order.
   */
  lemma {:induction false} SelectAppend<D(!new)>(a: seq<D>, b: seq<D>, additional: D -> bool,
                                                    fields: seq<D -> string>, term: string)
    ensures Select(a + b, additional, fields, term)
              == Select(a, additional, fields, term) + Select(b, additional, fields, term)
    decreases |a|
  {
    if a == [] {
      assert a + b == b;
    } else {
      assert (a + b)[1..] == a[1..] + b;
      assert (a + b)[0] == a[0];
      SelectAppend(a[1..], b, additional, fields, term);
    }
  }

  /** With no search term or no search fields, the filter is exactly the additional filters. */
  lemma BlankSearchIsAdditionalFilter<D(!new)>(additional: D -> bool, fields: seq<D -> string>, term: string)
    requires term == [] || fields == []
    ensures forall d :: Selected(d, additional, fields, term) <==> additional(d)
  {
  }

  /** Searching only narrows: no more documents match with a search term than without one. */
  lemma {:induction false} SearchNarrows<D(!new)>(docs: seq<D>, additional: D -> bool, fields: seq<D -> string>, term: string)
    ensures |Select(docs, additional, fields, term)| <= |Select(docs, additional, fields, [])|
    decreases |docs|
  {
    if docs != [] {
      SearchNarrows(docs[1..], additional, fields, term);
    }
  }

  /** The window `s[skip..skip + limit]`, clipped to `s`: MongoDB's `skip` then `limit`. */
  function Window<D>(s: seq<D>, skip: nat, limit: nat): (w: seq<D>)
    ensures |w| <= limit
    ensures |w| == if skip >= |s| then 0 else if |s| - skip < limit then |s| - skip else limit
    ensures forall i :: 0 <= i < |w| ==> skip + i < |s| && w[i] == s[skip + i]
  {
    if skip >= |s| then [] else if |s| - skip < limit then s[skip..] else s[skip..skip + limit]
  }

  /**
    The page arithmetic over the matching documents: `totalPages` is the
    ceiling of their count over `limit`, `skip` is `(page - 1) * limit`, and
    the data is the window of at most `limit` documents from `skip` on.
   */
  function Paginate<D>(matching: seq<D>, page: int, limit: int): (r: Page<D>)
    requires page >= 1 && limit >= 1
    ensures r.pagination.currentPage == page && r.pagination.itemsPerPage == limit
    ensures r.pagination.totalItems == |matching|
    ensures |matching| <= r.pagination.totalPages * limit
    ensures r.pagination.totalPages > 0 ==> (r.pagination.totalPages - 1) * limit < |matching|
    ensures |r.data| <= limit
    ensures var skip := Skip(page, limit);
            |r.data| == if skip >= |matching| then 0 else if |matching| - skip < limit then |matching| - skip else limit
    ensures var skip := Skip(page, limit);
            forall i :: 0 <= i < |r.data| ==> skip + i < |matching| && r.data[i] == matching[skip + i]
    ensures r.pagination.hasPrevPage <==> page > 1
  {
    Page(PageData(matching, page, limit), Counters(|matching|, page, limit))
  }

  /** The documents of page `page`: `skip((page - 1) * limit).limit(limit)`. */
  function PageData<D>(matching: seq<D>, page: int, limit: int): (data: seq<D>)
    requires page >= 1 && limit >= 1
    ensures |data| <= limit
    ensures var skip := Skip(page, limit);
            |data| == if skip >= |matching| then 0 else if |matching| - skip < limit then |matching| - skip else limit
    ensures var skip := Skip(page, limit);
            forall i :: 0 <= i < |data| ==> skip + i < |matching| && data[i] == matching[skip + i]
  {
    Window(matching, Skip(page, limit), limit)
  }

  /** The `pagination` object of the response for `total` matching documents. */
  function Counters(total: nat, page: int, limit: int): (info: PageInfo)
    requires page >= 1 && limit >= 1
    ensures info.currentPage == page && info.itemsPerPage == limit && info.totalItems == total
    ensures total <= info.totalPages * limit
    ensures info.totalPages > 0 ==> (info.totalPages - 1) * limit < total
    ensures info.hasPrevPage <==> page > 1
  {
    var totalPages := CeilDiv(total, limit);
    PageInfo(page, totalPages, total, limit, page < totalPages, page > 1)
  }

  /** `(page - 1) * limit`. */
  function Skip(page: int, limit: int): (skip: nat)
    requires page >= 1 && limit >= 1
    ensures skip == (page - 1) * limit
  {
    MulLeft(0, page - 1, limit);
    (page - 1) * limit
  }

  /**
    `r` is page `page` of `matching`: the counters echo the request and count
    the matches, the data is exactly the matches from `(page - 1) * limit` on,
    `limit` of them or the rest if fewer remain, and the two flags say whether
    matches lie after and before the window.
   */
  ghost predicate PageOf<D>(r: Page<D>, matching: seq<D>, page: int, limit: int)
    requires page >= 1 && limit >= 1
  {
    var skip := Skip(page, limit);
    && r.pagination.currentPage == page && r.pagination.itemsPerPage == limit
    && r.pagination.totalItems == |matching|
    && r.pagination.totalPages == CeilDiv(|matching|, limit)
    && |r.data| == (if skip >= |matching| then 0 else if |matching| - skip < limit then |matching| - skip else limit)
    && (forall i :: 0 <= i < |r.data| ==> skip + i < |matching| && r.data[i] == matching[skip + i])
    && (r.pagination.hasNextPage <==> skip + limit < |matching|)
    && (r.pagination.hasPrevPage <==> page > 1)
  }

  /** `Paginate` builds exactly the requested page. */
  lemma PaginateIsPageOf<D>(matching: seq<D>, page: int, limit: int)
    requires page >= 1 && limit >= 1
    ensures PageOf(Paginate(matching, page, limit), matching, page, limit)
  {
    NextPageIffMoreItems(matching, page, limit);
  }

  /**
    `getPaginatedResults`: `page` defaults to 1 and `limit` to 10, the matching
    documents are those the filter selects, in newest-first order, and the
    response is the requested page of them.
   */
  function GetPaginatedResults<D(==,!new)>(newestFirst: seq<D>, query: Query, fields: seq<D -> string>, additional: D -> bool)
    : (r: Page<D>)
    requires ValidQuery(query)
    ensures PageOf(r, Select(newestFirst, additional, fields, SearchTerm(query)),
                   query.page.GetOr(DefaultPage), query.limit.GetOr(DefaultLimit))
    ensures forall i :: 0 <= i < |r.data| ==> Selected(r.data[i], additional, fields, SearchTerm(query))
    ensures forall i :: 0 <= i < |r.data| ==> r.data[i] in newestFirst
  {
    var matching := Select(newestFirst, additional, fields, SearchTerm(query));
    var page, limit := query.page.GetOr(DefaultPage), query.limit.GetOr(DefaultLimit);
    var r := Paginate(matching, page, limit);
    PaginateIsPageOf(matching, page, limit);
    assert forall i :: 0 <= i < |r.data| ==> r.data[i] in matching;
    r
  }

  lemma MulLeft(a: int, b: int, c: int)
    requires a <= b && c >= 0
    ensures a * c <= b * c
  {
  }

  /** `page < ceil(total / limit)` exactly when the items do not end on this page. */
  lemma PageBeforeLast(page: nat, limit: nat, total: nat)
    requires limit > 0
    ensures page < CeilDiv(total, limit) <==> page * limit < total
  {
    var t := CeilDiv(total, limit);
    if page < t {
      MulLeft(page, t - 1, limit);
    } else {
      MulLeft(t, page, limit);
    }
  }

  /**
    `hasNextPage` says exactly that matching documents remain after this
    page's window, and `hasPrevPage` that the window does not start at the first.
   */
  lemma NextPageIffMoreItems<D>(matching: seq<D>, page: int, limit: int)
    requires page >= 1 && limit >= 1
    ensures var r := Paginate(matching, page, limit);
            var skip := (page - 1) * limit;
            && (r.pagination.hasNextPage <==> skip + limit < |matching|)
            && (r.pagination.hasPrevPage <==> skip > 0)
  {
    PageBeforeLast(page, limit, |matching|);
    assert (page - 1) * limit + limit == page * limit;
    if page > 1 {
      MulLeft(1, page - 1, limit);
    }
  }

  /**
    The pages partition the matches: the `j`-th matching document is on page
    `j / limit + 1`, which is within `totalPages`, at position `j % limit`.
   */
  lemma EveryMatchOnItsPage<D>(matching: seq<D>, limit: int, j: nat)
    requires limit >= 1 && j < |matching|
    ensures var r := Paginate(matching, j / limit + 1, limit);
            && j / limit + 1 <= r.pagination.totalPages
            && j % limit < |r.data|
            && r.data[j % limit] == matching[j]
  {
    DivMod(j, limit);
    OnPage(matching, limit, j / limit, j % limit);
  }

  /**
    Without a search term, every document that passes the additional filters
    is on some page of the results, whatever the page size.
   */
  lemma MatchOnSomePage<D(!new)>(newestFirst: seq<D>, d: D, fields: seq<D -> string>, additional: D -> bool,
                                    limit: int)
    requires d in newestFirst && additional(d) && 1 <= limit <= 100
    ensures exists page :: page >= 1 && d in GetPaginatedResults(newestFirst, Query(Some(page), Some(limit), None), fields, additional).data
  {
    var matching := Select(newestFirst, additional, fields, []);
    assert Selected(d, additional, fields, []);
    assert d in multiset(matching);
    var j :| 0 <= j < |matching| && matching[j] == d;
    DivMod(j, limit);
    var q := Query(Some(j / limit + 1), Some(limit), None);
    assert SearchTerm(q) == [];
    var r := GetPaginatedResults(newestFirst, q, fields, additional);
    assert r.data[j % limit] == d;
  }

  /** `j` sits at offset `j % limit` of page `j / limit + 1`. */
  lemma DivMod(j: nat, limit: int)
    requires limit >= 1
    ensures j == Skip(j / limit + 1, limit) + j % limit && j % limit < limit
  {
  }

  /** Position `k` of page `p + 1` holds match `Skip(p + 1, limit) + k`, and that page exists. */
  lemma OnPage<D>(matching: seq<D>, limit: int, p: nat, k: nat)
    requires limit >= 1 && k < limit && Skip(p + 1, limit) + k < |matching|
    ensures var r := Paginate(matching, p + 1, limit);
            && p + 1 <= r.pagination.totalPages
            && k < |r.data|
            && r.data[k] == matching[Skip(p + 1, limit) + k]
  {
    var r := Paginate(matching, p + 1, limit);
    if r.pagination.totalPages <= p {
      MulLeft(r.pagination.totalPages, p, limit);
    }
  }
}

=== FILE: product_service.dfy ===
/**
  Products (src/services/product.services.ts): adding a product together with
  its variants in one transaction, the soft delete, and the admin view of a
  product with all of its variants.
 */
module ProductService {
  import opened Common
  import opened Store
  import opened Text

  function ProductName(p: Product): string {
    p.name
  }

  /** One variant of an add request; `None` is a field left out. */
  datatype VariantInput = VariantInput(
    sku: string,
    price: Option<real>,
    salePrice: Option<real>,
    cost: Option<real>,
    quantity: Option<int>,
    lowStockThreshold: Option<int>,
    images: Option<seq<string>>,
    description: Option<string>,
    selectedOptions: Option<seq<SelectedOption>>,
    isActive: Option<bool>)

  /** The body of an add request. */
  datatype ProductInput = ProductInput(
    name: string,
    description: Option<string>,
    category: Id,
    isFeatured: Option<bool>,
    mainImage: Option<string>,
    status: Option<ProductStatus>,
    variants: seq<VariantInput>)

  /** The request's SKUs, each trimmed, in request order. */
  function TrimmedSkus(vs: seq<VariantInput>): (skus: seq<string>)
    ensures |skus| == |vs|
    ensures forall i :: 0 <= i < |vs| ==> skus[i] == Trim(vs[i].sku)
  {
    seq(|vs|, i requires 0 <= i < |vs| => Trim(vs[i].sku))
  }

  /** The distinct elements of a list: `new Set(s)`. */
  function Elements(s: seq<string>): set<string> {
    set x | x in s
  }

  /** No value occurs twice. */
  predicate PairwiseDistinct(s: seq<string>) {
    forall i, j :: 0 <= i < j < |s| ==> s[i] != s[j]
  }

  /** A list has no more distinct elements than entries. */
  lemma {:induction false} ElementsAtMostLength(s: seq<string>)
    ensures |Elements(s)| <= |s|
    decreases |s|
  {
    if s != [] {
      ElementsAtMostLength(s[1..]);
      assert Elements(s) == Elements(s[1..]) + {s[0]};
    }
  }

  /**
    The source's duplicate test `skus.length !== [...new Set(skus)].length`
    holds exactly when two entries are equal.
   */
  lemma {:induction false} SetSizeIffDistinct(s: seq<string>)
    ensures |Elements(s)| == |s| <==> PairwiseDistinct(s)
    decreases |s|
  {
    if s != [] {
      var t := s[1..];
      SetSizeIffDistinct(t);
      assert Elements(s) == Elements(t) + {s[0]};
      if s[0] in t {
        ElementsAtMostLength(t);
        var j :| 0 <= j < |t| && t[j] == s[0];
        assert s[0] == s[j + 1];
      } else {
        assert PairwiseDistinct(s) <==> PairwiseDistinct(t) by {
          if PairwiseDistinct(t) {
            forall i, j | 0 <= i < j < |s| ensures s[i] != s[j] {
              if i > 0 {
                assert s[i] == t[i - 1] && s[j] == t[j - 1];
              } else {
                assert s[j] == t[j - 1];
              }
            }
          }
          if PairwiseDistinct(s) {
            forall i, j | 0 <= i < j < |t| ensures t[i] != t[j] {
              assert t[i] == s[i + 1] && t[j] == s[j + 1];
            }
          }
        }
      }
    }
  }

  /** Some stored variant already carries one of these SKUs (an exact match, as `$in` compares). */
  predicate SkuTaken(variants: map<Id, Variant>, skus: seq<string>) {
    exists v :: v in variants && variants[v].sku in skus
  }

  /** The stored product: name trimmed, description trimmed when given, `isFeatured` false and `status` active by default. */
  function NewProduct(input: ProductInput): (p: Product)
    ensures p.name == Trim(input.name) && IsTrimmed(p.name)
    ensures p.category == input.category && p.mainImage == input.mainImage
    ensures p.description.Some? <==> input.description.Some?
    ensures p.description.Some? ==> p.description.value == Trim(input.description.value)
    ensures p.isFeatured == (input.isFeatured.Some? && input.isFeatured.value)
    ensures p.status == (if input.status.Some? then input.status.value else Active)
  {
    Product(Trim(input.name),
            if input.description.Some? then Some(Trim(input.description.value)) else None,
            input.category,
            input.isFeatured.GetOr(false),
            input.mainImage,
            input.status.GetOr(Active))
  }

  /** What the variant schema's `required` validators demand: a non-empty SKU and a price. */
  predicate Savable(input: VariantInput) {
    Trim(input.sku) != [] && input.price.Some?
  }

  /**
    The stored variant: it references the new product, the SKU is trimmed,
    quantity and low-stock threshold default to 0, images and selected options
    to none, and `isActive` to true.
   */
  function NewVariant(productId: Id, input: VariantInput): (v: Variant)
    requires input.price.Some?
    ensures v.productId == productId && v.sku == Trim(input.sku) && v.price == input.price.value
    ensures v.quantity == (if input.quantity.Some? then input.quantity.value else 0)
    ensures v.lowStockThreshold == (if input.lowStockThreshold.Some? then input.lowStockThreshold.value else 0)
    ensures v.images == (if input.images.Some? then input.images.value else [])
    ensures v.selectedOptions == (if input.selectedOptions.Some? then input.selectedOptions.value else [])
    ensures v.isActive == (input.isActive.None? || input.isActive.value)
  {
    Variant(productId, Trim(input.sku), input.price.value, input.salePrice, input.cost,
            input.quantity.GetOr(0), input.lowStockThreshold.GetOr(0), input.images.GetOr([]),
            if input.description.Some? then Some(Trim(input.description.value)) else None,
            input.selectedOptions.GetOr([]), input.isActive.GetOr(true))
  }

  /** The variants built from the request, in request order. */
  function NewVariants(productId: Id, inputs: seq<VariantInput>): (vs: seq<Variant>)
    requires forall i :: 0 <= i < |inputs| ==> inputs[i].price.Some?
    ensures |vs| == |inputs|
    ensures forall i :: 0 <= i < |inputs| ==> vs[i] == NewVariant(productId, inputs[i])
  {
    seq(|inputs|, i requires 0 <= i < |inputs| => NewVariant(productId, inputs[i]))
  }

  /** Each `ids[i]` stored with `vals[i]`. */
  function InsertAll<V>(m: map<Id, V>, ids: seq<Id>, vals: seq<V>): (r: map<Id, V>)
    requires |ids| == |vals|
    requires forall i, j :: 0 <= i < j < |ids| ==> ids[i] != ids[j]
    ensures forall k :: k in r <==> k in m || k in ids
    ensures forall i :: 0 <= i < |ids| ==> r[ids[i]] == vals[i]
    ensures forall k :: k in m && k !in ids ==> r[k] == m[k]
    decreases |ids|
  {
    if ids == [] then m
    else
      var rest := InsertAll(m, ids[1..], vals[1..]);
      assert forall i :: 1 <= i < |ids| ==> ids[i] == ids[1..][i - 1] && vals[i] == vals[1..][i - 1];
      rest[ids[0] := vals[0]]
  }

  /** Fresh document ids for the product and one per variant. */
  predicate FreshIds(st: Store, productId: Id, variantIds: seq<Id>, n: int) {
    && productId !in st.products
    && |variantIds| == n
    && (forall i :: 0 <= i < |variantIds| ==> variantIds[i] !in st.variants)
    && (forall i, j :: 0 <= i < j < |variantIds| ==> variantIds[i] != variantIds[j])
  }

  /**
    `addProductService`, in its order: PRODUCT_EXISTS when a stored product has
    the trimmed name up to case; DUPLICATE_SKU when two trimmed SKUs of the
    request are equal; SKU_EXISTS when a stored variant has one of them; then
    the product and its variants are saved, and a `required` validator that
    fails (an empty name or SKU, a missing price) aborts the transaction as
    INTERNAL_ERROR. Any failure leaves the store as it was. The source's
    duplicate test compares the size of `new Set(skus)` with the number of
    SKUs; `SetSizeIffDistinct` shows that is the same as two SKUs being equal.
   */
  function AddProduct(st: Store, input: ProductInput, productId: Id, variantIds: seq<Id>)
    : (out: Response<(Product, seq<Variant>)>)
    requires FreshIds(st, productId, variantIds, |input.variants|)
    ensures out.result.Err? ==> out.store == st
    ensures out.result == Err(ProductExists) <==> NameInUse(st.products, ProductName, Trim(input.name), None)
    ensures out.result == Err(DuplicateSku) <==>
              !NameInUse(st.products, ProductName, Trim(input.name), None)
              && !PairwiseDistinct(TrimmedSkus(input.variants))
    ensures out.result == Err(SkuExists) <==>
              && !NameInUse(st.products, ProductName, Trim(input.name), None)
              && PairwiseDistinct(TrimmedSkus(input.variants))
              && SkuTaken(st.variants, TrimmedSkus(input.variants))
    ensures out.result == Err(InternalError) <==>
              && !NameInUse(st.products, ProductName, Trim(input.name), None)
              && PairwiseDistinct(TrimmedSkus(input.variants))
              && !SkuTaken(st.variants, TrimmedSkus(input.variants))
              && !(Trim(input.name) != [] && forall i :: 0 <= i < |input.variants| ==> Savable(input.variants[i]))
    ensures out.result.Ok? <==>
              && !NameInUse(st.products, ProductName, Trim(input.name), None)
              && PairwiseDistinct(TrimmedSkus(input.variants))
              && !SkuTaken(st.variants, TrimmedSkus(input.variants))
              && Trim(input.name) != []
              && (forall i :: 0 <= i < |input.variants| ==> Savable(input.variants[i]))
    ensures out.result.Ok? ==>
              && out.result.value.0 == NewProduct(input)
              && out.result.value.1 == NewVariants(productId, input.variants)
              && out.store == st.(products := st.products[productId := NewProduct(input)],
                                  variants := InsertAll(st.variants, variantIds, NewVariants(productId, input.variants)))
  {
    var skus := TrimmedSkus(input.variants);
    if NameInUse(st.products, ProductName, Trim(input.name), None) then Response(st, Err(ProductExists))
    else if !PairwiseDistinct(skus) then Response(st, Err(DuplicateSku))
    else if SkuTaken(st.variants, skus) then Response(st, Err(SkuExists))
    else if Trim(input.name) == [] then Response(st, Err(InternalError))
    else if !(forall i :: 0 <= i < |input.variants| ==> Savable(input.variants[i])) then Response(st, Err(InternalError))
    else
      var p := NewProduct(input);
      var saved := NewVariants(productId, input.variants);
      Response(st.(products := st.products[productId := p], variants := InsertAll(st.variants, variantIds, saved)),
               Ok((p, saved)))
  }

  /** No two stored variants share a SKU. */
  ghost predicate SkusUnique(variants: map<Id, Variant>) {
    forall a, b :: a in variants && b in variants && a != b ==> variants[a].sku != variants[b].sku
  }

  /** A successful add keeps SKUs unique across all stored variants. */
  lemma AddProductKeepsSkusUnique(st: Store, input: ProductInput, productId: Id, variantIds: seq<Id>)
    requires FreshIds(st, productId, variantIds, |input.variants|)
    requires SkusUnique(st.variants)
    ensures SkusUnique(AddProduct(st, input, productId, variantIds).store.variants)
  {
    if AddProduct(st, input, productId, variantIds).result.Ok? {
      NewVariantsKeepSkusUnique(st.variants, variantIds, productId, input.variants);
    }
  }

  /** Storing the variants of a request whose SKUs are distinct and unused keeps SKUs unique. */
  lemma NewVariantsKeepSkusUnique(m: map<Id, Variant>, ids: seq<Id>, productId: Id, inputs: seq<VariantInput>)
    requires SkusUnique(m)
    requires |ids| == |inputs| && (forall i, j :: 0 <= i < j < |ids| ==> ids[i] != ids[j])
    requires forall i :: 0 <= i < |ids| ==> ids[i] !in m
    requires forall i :: 0 <= i < |inputs| ==> inputs[i].price.Some?
    requires PairwiseDistinct(TrimmedSkus(inputs)) && !SkuTaken(m, TrimmedSkus(inputs))
    ensures SkusUnique(InsertAll(m, ids, NewVariants(productId, inputs)))
  {
    var vs := NewVariants(productId, inputs);
    var skus := TrimmedSkus(inputs);
    assert forall i :: 0 <= i < |vs| ==> vs[i].sku == skus[i];
    InsertAllKeepsSkusUnique(m, ids, vs, skus);
  }

  /**
    Inserting variants under fresh ids keeps SKUs unique when the new SKUs are
    pairwise distinct and none is stored yet.
   */
  lemma InsertAllKeepsSkusUnique(m: map<Id, Variant>, ids: seq<Id>, vs: seq<Variant>, skus: seq<string>)
    requires SkusUnique(m)
    requires |ids| == |vs| == |skus| && (forall i, j :: 0 <= i < j < |ids| ==> ids[i] != ids[j])
    requires forall i :: 0 <= i < |ids| ==> ids[i] !in m
    requires forall i :: 0 <= i < |vs| ==> vs[i].sku == skus[i]
    requires PairwiseDistinct(skus) && !SkuTaken(m, skus)
    ensures SkusUnique(InsertAll(m, ids, vs))
  {
    var after := InsertAll(m, ids, vs);
    forall a, b | a in after && b in after && a != b
      ensures after[a].sku != after[b].sku
    {
      if a in m && b in m {
        assert after[a] == m[a] && after[b] == m[b];
      } else if a in m {
        var j :| 0 <= j < |ids| && ids[j] == b;
        assert after[b] == vs[j] && after[a] == m[a];
        assert skus[j] in skus;
      } else if b in m {
        var i :| 0 <= i < |ids| && ids[i] == a;
        assert after[a] == vs[i] && after[b] == m[b];
        assert skus[i] in skus;
      } else {
        var i :| 0 <= i < |ids| && ids[i] == a;
        var j :| 0 <= j < |ids| && ids[j] == b;
        assert after[a] == vs[i] && after[b] == vs[j];
        assert i != j;
        if i < j { assert skus[i] != skus[j]; } else { assert skus[j] != skus[i]; }
      }
    }
  }

  /** Every variant an add creates references the new product, and no stored variant changes. */
  lemma AddedVariantsBelongToProduct(st: Store, input: ProductInput, productId: Id, variantIds: seq<Id>)
    requires FreshIds(st, productId, variantIds, |input.variants|)
    requires AddProduct(st, input, productId, variantIds).result.Ok?
    ensures var after := AddProduct(st, input, productId, variantIds).store.variants;
            && (forall v :: v in after && v !in st.variants ==> after[v].productId == productId)
            && (forall v :: v in st.variants ==> v in after && after[v] == st.variants[v])
  {
    InsertAllOfProduct(st.variants, variantIds, NewVariants(productId, input.variants), productId);
  }

  /** Inserting variants of one product under fresh ids: the new entries are that product's, the old ones stay. */
  lemma InsertAllOfProduct(m: map<Id, Variant>, ids: seq<Id>, vs: seq<Variant>, productId: Id)
    requires |ids| == |vs| && (forall i, j :: 0 <= i < j < |ids| ==> ids[i] != ids[j])
    requires forall i :: 0 <= i < |ids| ==> ids[i] !in m
    requires forall i :: 0 <= i < |vs| ==> vs[i].productId == productId
    ensures var after := InsertAll(m, ids, vs);
            && (forall v :: v in after && v !in m ==> after[v].productId == productId)
            && (forall v :: v in m ==> v in after && after[v] == m[v])
  {
    var after := InsertAll(m, ids, vs);
    forall v | v in after && v !in m
      ensures after[v].productId == productId
    {
      var i :| 0 <= i < |ids| && ids[i] == v;
      assert after[v] == vs[i];
    }
  }

  /** `deleteProductService`: a soft delete that sets the status to inactive; variants are untouched. */
  function DeleteProduct(st: Store, id: Id): (out: Response<Product>)
    ensures id !in st.products ==> out == Response(st, Err(ProductNotFound))
    ensures id in st.products ==>
              && out.result == Ok(st.products[id].(status := Inactive))
              && out.store == st.(products := st.products[id := out.result.value])
  {
    if id !in st.products then Response(st, Err(ProductNotFound))
    else
      var p := st.products[id].(status := Inactive);
      Response(st.(products := st.products[id := p]), Ok(p))
  }

  /** The variants of product `id`, each under its own id. */
  function VariantsOf(variants: map<Id, Variant>, id: Id): (r: map<Id, Variant>)
    ensures forall v :: v in r <==> v in variants && variants[v].productId == id
    ensures forall v :: v in r ==> r[v] == variants[v]
  {
    map v | v in variants && variants[v].productId == id :: variants[v]
  }

  /** The admin view: a product with every one of its variants, active or not. */
  datatype ProductDetail = ProductDetail(product: Product, variants: map<Id, Variant>)

  /** `viewProductService`: PRODUCT_NOT_FOUND, or the product with all variants that reference it. */
  function ViewProduct(st: Store, id: Id): (r: Result<ProductDetail>)
    ensures id !in st.products <==> r == Err(ProductNotFound)
    ensures r.Ok? ==>
              && r.value.product == st.products[id]
              && (forall v :: v in r.value.variants <==> v in st.variants && st.variants[v].productId == id)
              && (forall v :: v in r.value.variants ==> r.value.variants[v] == st.variants[v])
  {
    if id !in st.products then Err(ProductNotFound)
    else Ok(ProductDetail(st.products[id], VariantsOf(st.variants, id)))
  }

  /** After a soft delete the admin view still shows the product, now inactive, with the same variants. */
  lemma DeleteKeepsAdminView(st: Store, id: Id)
    requires id in st.products
    ensures var after := DeleteProduct(st, id).store;
            ViewProduct(after, id) == Ok(ProductDetail(st.products[id].(status := Inactive), VariantsOf(st.variants, id)))
  {
  }

  /** Inserting the variants of a product no stored variant references makes them exactly its variants. */
  lemma VariantsOfInserted(variants: map<Id, Variant>, productId: Id, ids: seq<Id>, vs: seq<Variant>)
    requires |ids| == |vs| && (forall i, j :: 0 <= i < j < |ids| ==> ids[i] != ids[j])
    requires forall i :: 0 <= i < |vs| ==> vs[i].productId == productId
    requires forall v :: v in variants ==> variants[v].productId != productId
    ensures forall v :: v in VariantsOf(InsertAll(variants, ids, vs), productId) <==> v in ids
  {
    var after := InsertAll(variants, ids, vs);
    var r := VariantsOf(after, productId);
    forall i | 0 <= i < |ids|
      ensures ids[i] in r
    {
      assert after[ids[i]] == vs[i];
    }
  }

  /** Right after a successful add, the admin view shows the new product with exactly the new variants. */
  lemma AddThenView(st: Store, input: ProductInput, productId: Id, variantIds: seq<Id>)
    requires FreshIds(st, productId, variantIds, |input.variants|)
    requires forall v :: v in st.variants ==> st.variants[v].productId in st.products
    requires AddProduct(st, input, productId, variantIds).result.Ok?
    ensures var r := ViewProduct(AddProduct(st, input, productId, variantIds).store, productId);
            && r.Ok?
            && r.value.product == NewProduct(input)
            && (forall v :: v in r.value.variants <==> v in variantIds)
  {
    VariantsOfInserted(st.variants, productId, variantIds, NewVariants(productId, input.variants));
  }
}

=== FILE: store.dfy ===
/**
  The document store as an immutable value: one map from document id to record
  per collection. Field shapes follow the schemas in src/models; monetary fields
  are carried as given (`real`) and never computed with; dates are integer
  timestamps in milliseconds.
 */
module Store {
  import opened Common
  import Text

  type Id = string
  type Timestamp = int

  /** A postal address: the embedded `shippingAddress` of an order and an entry of `User.addresses`. */
  datatype Address = Address(
    fullName: string, phone: string, addressLine1: string, addressLine2: string,
    city: string, state: string, pincode: string, country: string)

  datatype User = User(
    firstName: string,
    lastName: string,
    email: string,
    password: string,
    phone: string,
    image: string,
    role: string,
    addresses: Option<seq<Address>>,   // `None`: the field is absent from the document
    isActive: bool)

  datatype ProductStatus = Active | Inactive

  datatype Product = Product(
    name: string,
    description: Option<string>,
    category: Id,
    isFeatured: bool,
    mainImage: Option<string>,
    status: ProductStatus)

  datatype SelectedOption = SelectedOption(optionId: Id, optionName: string, selectedValue: string)

  datatype Variant = Variant(
    productId: Id,
    sku: string,
    price: real,
    salePrice: Option<real>,
    cost: Option<real>,
    quantity: int,
    lowStockThreshold: int,
    images: seq<string>,
    description: Option<string>,
    selectedOptions: seq<SelectedOption>,
    isActive: bool)

  datatype OrderStatus = Placed | Confirmed | Shipped | Delivered | Cancelled

  /** The status as the string stored in the document. */
  function StatusName(s: OrderStatus): string {
    match s
    case Placed => "placed"
    case Confirmed => "confirmed"
    case Shipped => "shipped"
    case Delivered => "delivered"
    case Cancelled => "cancelled"
  }

  datatype PaymentMethod = Cod
  datatype PaymentStatus = Pending | Paid | Failed

  /** One line of an order: a point-in-time copy of what the request declared. */
  datatype OrderItem = OrderItem(
    productId: Id,
    variantId: Id,
    productName: string,
    sku: string,
    quantity: int,
    price: real,
    salePrice: Option<real>,
    totalPrice: real)

  datatype StatusEntry = StatusEntry(status: OrderStatus, timestamp: Timestamp, note: string)

  datatype Order = Order(
    orderNumber: string,
    customerId: Id,
    items: seq<OrderItem>,
    subtotal: real,
    shippingCost: real,
    tax: real,
    discount: real,
    totalAmount: real,
    paymentMethod: PaymentMethod,
    paymentStatus: PaymentStatus,
    shippingAddress: Option<Address>,
    status: OrderStatus,
    statusHistory: seq<StatusEntry>,
    expectedDeliveryDate: Timestamp)

  datatype Category = Category(name: string, description: string, image: string, isActive: bool)

  /** A product option such as "Size" with its allowed values. */
  datatype ProductOption = ProductOption(optionName: string, values: seq<string>, isActive: bool)

  datatype Store = Store(
    users: map<Id, User>,
    products: map<Id, Product>,
    variants: map<Id, Variant>,
    orders: map<Id, Order>,
    categories: map<Id, Category>,
    options: map<Id, ProductOption>)

  /** The state after a service call together with what the call returned. */
  datatype Response<+T> = Response(store: Store, result: Result<T>)

  /** Every order number currently stored. */
  function OrderNumbers(st: Store): (ns: set<string>)
    ensures forall id :: id in st.orders ==> st.orders[id].orderNumber in ns
    ensures forall n :: n in ns ==> exists id :: id in st.orders && st.orders[id].orderNumber == n
  {
    set id | id in st.orders :: st.orders[id].orderNumber
  }

  /**
    Some record other than `except` is named `name` up to case: the anchored,
    case-insensitive `^name$` lookup the catalog services run before a write.
   */
  predicate NameInUse<T>(records: map<Id, T>, nameOf: T -> string, name: string, except: Option<Id>) {
    exists id :: id in records && except != Some(id) && Text.EqualsIgnoreCase(nameOf(records[id]), name)
  }

  /** No two records share a name up to case. */
  ghost predicate DistinctNames<T>(records: map<Id, T>, nameOf: T -> string) {
    forall a, b :: a in records && b in records && a != b ==>
      !Text.EqualsIgnoreCase(nameOf(records[a]), nameOf(records[b]))
  }

  /** Storing a record under `id` whose name no other record uses keeps names distinct. */
  lemma DistinctNamesAfterUpdate<T>(records: map<Id, T>, nameOf: T -> string, id: Id, x: T)
    requires DistinctNames(records, nameOf)
    requires !NameInUse(records, nameOf, nameOf(x), Some(id))
    ensures DistinctNames(records[id := x], nameOf)
  {
    var after := records[id := x];
    forall a, b | a in after && b in after && a != b
      ensures !Text.EqualsIgnoreCase(nameOf(after[a]), nameOf(after[b]))
    {
      if a == id {
        assert !Text.EqualsIgnoreCase(nameOf(records[b]), nameOf(x));
      } else if b == id {
        assert !Text.EqualsIgnoreCase(nameOf(records[a]), nameOf(x));
      }
    }
  }

  /** Under distinct names, a record's own name is used by no other record. */
  lemma OwnNameNotInUse<T>(records: map<Id, T>, nameOf: T -> string, id: Id)
    requires DistinctNames(records, nameOf) && id in records
    ensures !NameInUse(records, nameOf, nameOf(records[id]), Some(id))
  {
  }
}

=== FILE: text.dfy ===
/**
  String operations the services rely on: JavaScript's `trim`, ASCII
  `toLowerCase`, `startsWith`, and the code-point lexicographic order that the
  document store uses to sort string fields.
 */
module Text {

  /** JavaScript's WhiteSpace and LineTerminator characters, which `trim` removes. */
  predicate IsWhitespace(c: char) {
    || c == ' ' || c == '\t' || c == '\n' || c == '\r'
    || c == '\U{000B}' || c == '\U{000C}'
    || c == '\U{00A0}' || c == '\U{1680}'
    || ('\U{2000}' <= c <= '\U{200A}')
    || c == '\U{2028}' || c == '\U{2029}' || c == '\U{202F}' || c == '\U{205F}'
    || c == '\U{3000}' || c == '\U{FEFF}'
  }

  /** Number of leading whitespace characters of `s`. */
  function LeadingSpace(s: string): (n: nat)
    ensures n <= |s|
    ensures forall i :: 0 <= i < n ==> IsWhitespace(s[i])
    ensures n < |s| ==> !IsWhitespace(s[n])
  {
    if s == [] || !IsWhitespace(s[0]) then 0 else 1 + LeadingSpace(s[1..])
  }

  /** Number of trailing whitespace characters of `s`. */
  function TrailingSpace(s: string): (n: nat)
    ensures n <= |s|
    ensures forall i :: |s| - n <= i < |s| ==> IsWhitespace(s[i])
    ensures n < |s| ==> !IsWhitespace(s[|s| - n - 1])
  {
    if s == [] || !IsWhitespace(s[|s| - 1]) then 0 else 1 + TrailingSpace(s[..|s| - 1])
  }

  /** `String.prototype.trim`: the slice of `s` without leading and trailing whitespace. */
  function Trim(s: string): (t: string)
    ensures |t| <= |s|
    ensures IsTrimmed(t)
  {
    var a := LeadingSpace(s);
    var rest := s[a..];
    rest[..|rest| - TrailingSpace(rest)]
  }

  /**
    What `trim` keeps: the run of `s` that starts after its leading whitespace
    and is followed only by whitespace, and nothing at all exactly when `s` is
    all whitespace.
   */
  lemma TrimSpec(s: string)
    ensures LeadingSpace(s) + |Trim(s)| <= |s|
    ensures forall i :: 0 <= i < |Trim(s)| ==> Trim(s)[i] == s[LeadingSpace(s) + i]
    ensures forall i :: LeadingSpace(s) + |Trim(s)| <= i < |s| ==> IsWhitespace(s[i])
    ensures Trim(s) == [] <==> forall i :: 0 <= i < |s| ==> IsWhitespace(s[i])
  {
    var a := LeadingSpace(s);
    var t := Trim(s);
    assert t == s[a..a + |t|];
    var rest := s[a..];
    forall i | a + |t| <= i < |s| ensures IsWhitespace(s[i]) {
      assert s[i] == rest[i - a];
    }
    AllSpaceWhenTrimEmpty(s, a, t);
  }

  lemma AllSpaceWhenTrimEmpty(s: string, a: nat, t: string)
    requires a == LeadingSpace(s) && t == s[a..][..|s[a..]| - TrailingSpace(s[a..])]
    ensures t == [] ==> forall i :: 0 <= i < |s| ==> IsWhitespace(s[i])
  {
  }

  /** A string with no whitespace at either end. */
  predicate IsTrimmed(s: string) {
    s == [] || (!IsWhitespace(s[0]) && !IsWhitespace(s[|s| - 1]))
  }

  lemma LeadingSpaceOfTrimmed(s: string)
    requires IsTrimmed(s)
    ensures LeadingSpace(s) == 0 && TrailingSpace(s) == 0
  {
  }

  /** Trimming twice is trimming once. */
  lemma TrimIdempotent(s: string)
    ensures Trim(Trim(s)) == Trim(s)
  {
    var t := Trim(s);
    LeadingSpaceOfTrimmed(t);
    assert t[0..] == t;
    assert t[..|t|] == t;
  }

  /** `toLowerCase` on one character (ASCII letters only). */
  function LowerChar(c: char): (d: char)
    ensures 'A' <= c <= 'Z' ==> d as int == c as int + 32
    ensures !('A' <= c <= 'Z') ==> d == c
  {
    if 'A' <= c <= 'Z' then (c as int + 32) as char else c
  }

  /** `String.prototype.toLowerCase`, character by character. */
  function ToLower(s: string): (r: string)
    ensures |r| == |s|
    ensures forall i :: 0 <= i < |s| ==> r[i] == LowerChar(s[i])
  {
    seq(|s|, i requires 0 <= i < |s| => LowerChar(s[i]))
  }

  /** Lower-casing is idempotent: a lower-cased string is its own lower case. */
  lemma ToLowerIdempotent(s: string)
    ensures ToLower(ToLower(s)) == ToLower(s)
  {
  }

  /** Lower-casing neither creates nor removes whitespace. */
  lemma LowerCharSpace(c: char)
    ensures IsWhitespace(LowerChar(c)) <==> IsWhitespace(c)
  {
  }

  /** Trimming a lower-case string leaves it in lower case. */
  lemma TrimOfLowerIsLower(s: string)
    requires ToLower(s) == s
    ensures ToLower(Trim(s)) == Trim(s)
  {
    TrimSpec(s);
    var t, a := Trim(s), LeadingSpace(s);
    forall i | 0 <= i < |t| ensures ToLower(t)[i] == t[i] {
      assert t[i] == s[a + i] == ToLower(s)[a + i] == LowerChar(s[a + i]);
    }
  }

  /** A count of leading whitespace is determined by where the first other character is. */
  lemma LeadingSpaceUnique(s: string, n: nat)
    requires n <= |s| && (forall i :: 0 <= i < n ==> IsWhitespace(s[i]))
    requires n < |s| ==> !IsWhitespace(s[n])
    ensures LeadingSpace(s) == n
  {
  }

  /** Lower-casing keeps the leading whitespace. */
  lemma LeadingSpaceOfLower(s: string)
    ensures LeadingSpace(ToLower(s)) == LeadingSpace(s)
  {
    var x, n := ToLower(s), LeadingSpace(s);
    forall i | 0 <= i < |s| ensures IsWhitespace(x[i]) <==> IsWhitespace(s[i]) {
      LowerCharSpace(s[i]);
    }
    LeadingSpaceUnique(x, n);
  }

  /** Case-insensitive equality: the anchored `new RegExp("^" + name + "$", "i")` test. */
  predicate EqualsIgnoreCase(a: string, b: string) {
    ToLower(a) == ToLower(b)
  }

  /** `s.startsWith(p)`. */
  predicate StartsWith(s: string, p: string) {
    |p| <= |s| && s[..|p|] == p
  }

  /** Lexicographic order by code point: the order of a descending string sort. */
  predicate LexLe(a: string, b: string)
    decreases |a|
  {
    a == [] || (b != [] && (a[0] < b[0] || (a[0] == b[0] && LexLe(a[1..], b[1..]))))
  }

  predicate LexLt(a: string, b: string) {
    LexLe(a, b) && a != b
  }

  lemma {:induction false} LexLeReflexive(a: string)
    ensures LexLe(a, a)
    decreases |a|
  {
    if a != [] {
      LexLeReflexive(a[1..]);
    }
  }

  lemma {:induction false} LexLeTotal(a: string, b: string)
    ensures LexLe(a, b) || LexLe(b, a)
    decreases |a|
  {
    if a != [] && b != [] && a[0] == b[0] {
      LexLeTotal(a[1..], b[1..]);
    }
  }

  lemma {:induction false} LexLeAntisymmetric(a: string, b: string)
    requires LexLe(a, b) && LexLe(b, a)
    ensures a == b
    decreases |a|
  {
    if a != [] {
      LexLeAntisymmetric(a[1..], b[1..]);
      assert a == [a[0]] + a[1..];
      assert b == [b[0]] + b[1..];
    }
  }

  lemma {:induction false} LexLeTransitive(a: string, b: string, c: string)
    requires LexLe(a, b) && LexLe(b, c)
    ensures LexLe(a, c)
    decreases |a|
  {
    if a != [] && a[0] == b[0] && b[0] == c[0] {
      LexLeTransitive(a[1..], b[1..], c[1..]);
    }
  }

  lemma LexLeAntisymmetricAll()
    ensures forall a, b :: LexLe(a, b) && LexLe(b, a) ==> a == b
  {
    forall a, b | LexLe(a, b) && LexLe(b, a) ensures a == b {
      LexLeAntisymmetric(a, b);
    }
  }

  /** Strings sharing a prefix compare as their remainders do. */
  lemma {:induction false} LexLeCommonPrefix(p: string, u: string, v: string)
    ensures LexLe(p + u, p + v) <==> LexLe(u, v)
    decreases |p|
  {
    if p != [] {
      assert (p + u)[0] == p[0] == (p + v)[0];
      assert (p + u)[1..] == p[1..] + u;
      assert (p + v)[1..] == p[1..] + v;
      LexLeCommonPrefix(p[1..], u, v);
      assert LexLe(p + u, p + v) <==> LexLe((p + u)[1..], (p + v)[1..]);
    } else {
      assert p + u == u && p + v == v;
    }
  }

  /** The greatest element of `s`. */
  ghost predicate IsGreatest(m: string, s: set<string>) {
    m in s && forall x :: x in s ==> LexLe(x, m)
  }

  /** Every finite non-empty set of strings has a greatest element. */
  lemma {:induction false} GreatestExists(s: set<string>)
    requires s != {}
    ensures exists m :: IsGreatest(m, s)
    decreases |s|
  {
    var y :| y in s;
    if s == {y} {
      LexLeReflexive(y);
      assert IsGreatest(y, s);
    } else {
      var rest := s - {y};
      GreatestExists(rest);
      var m :| IsGreatest(m, rest);
      LexLeTotal(y, m);
      if LexLe(y, m) {
        assert IsGreatest(m, s);
      } else {
        LexLeReflexive(y);
        forall x | x in s ensures LexLe(x, y) {
          if x != y { LexLeTransitive(x, m, y); }
        }
        assert IsGreatest(y, s);
      }
    }
  }

  /** The greatest string of a non-empty set: the first document of a descending sort. */
  function Greatest(s: set<string>): (m: string)
    requires s != {}
    ensures m in s
    ensures forall x :: x in s ==> LexLe(x, m)
  {
    GreatestExists(s);
    LexLeAntisymmetricAll();
    var m :| m in s && forall x :: x in s ==> LexLe(x, m);
    m
  }
}

=== FILE: user_service.dfy ===
/**
  Registration (src/services/user.services.ts): the duplicate check, the
  normalisation of the submitted fields and the defaults of a new account.
  Password hashing is a parameter.
 */
module UserService {
  import opened Common
  import opened Store
  import opened Text

  /** The body of a registration request; `None` is a field left out. */
  datatype Registration = Registration(
    firstName: string,
    lastName: string,
    email: string,
    password: string,
    phone: Option<string>,
    image: Option<string>,
    role: Option<string>)

  /** The account as returned to the caller: every stored field except the password. */
  datatype UserView = UserView(
    id: Id,
    firstName: string,
    lastName: string,
    email: string,
    phone: string,
    image: string,
    role: string,
    addresses: seq<Address>,
    isActive: bool)

  /** The stored form of an email address: lower-cased, then trimmed; already in lower case. */
  function NormalizeEmail(email: string): (e: string)
    ensures IsTrimmed(e) && ToLower(e) == e
  {
    var lower := ToLower(email);
    ToLowerIdempotent(email);
    TrimOfLowerIsLower(lower);
    Trim(lower)
  }

  /**
    What normalising keeps: the lower-cased run of the input that starts after
    its leading whitespace and is followed only by whitespace; nothing exactly
    when the input is all whitespace.
   */
  lemma NormalizeEmailSpec(email: string)
    ensures LeadingSpace(email) + |NormalizeEmail(email)| <= |email|
    ensures forall i :: 0 <= i < |NormalizeEmail(email)| ==>
              NormalizeEmail(email)[i] == LowerChar(email[LeadingSpace(email) + i])
    ensures forall i :: LeadingSpace(email) + |NormalizeEmail(email)| <= i < |email| ==> IsWhitespace(email[i])
    ensures NormalizeEmail(email) == [] <==> forall i :: 0 <= i < |email| ==> IsWhitespace(email[i])
  {
    var x := ToLower(email);
    TrimSpec(x);
    LeadingSpaceOfLower(email);
    assert forall i :: 0 <= i < |email| ==> (IsWhitespace(x[i]) <==> IsWhitespace(email[i]));
  }

  /** A stored user has exactly this email. */
  predicate EmailTaken(users: map<Id, User>, email: string) {
    exists u :: u in users && users[u].email == email
  }

  /** `x || fallback` for an optional string: an absent or empty value falls back. */
  function OrElse(x: Option<string>, fallback: string): (r: string)
    ensures x.Some? && x.value != [] ==> r == x.value
    ensures x.None? || x.value == [] ==> r == fallback
  {
    if x.Some? && x.value != [] then x.value else fallback
  }

  /** The values of the schema's role enum. */
  predicate ValidRole(role: string) {
    role == "admin" || role == "customer"
  }

  /** The account a successful registration stores. */
  function NewUser(input: Registration, hash: string -> string): User {
    User(Trim(input.firstName), Trim(input.lastName), NormalizeEmail(input.email), hash(input.password),
         OrElse(input.phone, ""), OrElse(input.image, ""), OrElse(input.role, "customer"), Some([]), true)
  }

  function View(id: Id, u: User): (v: UserView)
    ensures v.id == id && v.email == u.email && v.role == u.role && v.addresses == u.addresses.GetOr([])
    ensures v.firstName == u.firstName && v.lastName == u.lastName && v.phone == u.phone && v.image == u.image
    ensures v.isActive == u.isActive
  {
    UserView(id, u.firstName, u.lastName, u.email, u.phone, u.image, u.role, u.addresses.GetOr([]), u.isActive)
  }

  /**
    `registerUserService`: USER_EXISTS when a stored user has the lower-cased
    (untrimmed) email; otherwise the account is saved with trimmed names, the
    normalised email and the hashed password, phone and image defaulting to ""
    and the role to "customer", no addresses, and active. Saving fails with
    INTERNAL_ERROR when the schema rejects it (an empty email, a role outside
    the enum) or the unique email index already holds the normalised email.
    `newId` is the new document's id.
   */
  function Register(st: Store, input: Registration, hash: string -> string, newId: Id): (out: Response<UserView>)
    requires newId !in st.users
    ensures out.result.Err? ==> out.store == st
    ensures out.result == Err(UserExists) <==> EmailTaken(st.users, ToLower(input.email))
    ensures !EmailTaken(st.users, ToLower(input.email)) && !out.result.Ok? ==> out.result == Err(InternalError)
    ensures out.result.Ok? <==>
              && !EmailTaken(st.users, ToLower(input.email))
              && NormalizeEmail(input.email) != []
              && ValidRole(OrElse(input.role, "customer"))
              && !EmailTaken(st.users, NormalizeEmail(input.email))
    ensures out.result.Ok? ==> newId in out.store.users && out.store == st.(users := st.users[newId := out.store.users[newId]])
    ensures out.result.Ok? && newId in out.store.users ==>
              var u := out.store.users[newId];
              && u.email == NormalizeEmail(input.email)
              && u.firstName == Trim(input.firstName) && u.lastName == Trim(input.lastName)
              && u.password == hash(input.password)
              && u.phone == OrElse(input.phone, "") && u.image == OrElse(input.image, "")
              && u.role == OrElse(input.role, "customer")
              && u.addresses == Some([]) && u.isActive
              && out.result.value == View(newId, u)
  {
    if EmailTaken(st.users, ToLower(input.email)) then Response(st, Err(UserExists))
    else
      var u := NewUser(input, hash);
      if u.email == [] || !ValidRole(u.role) || EmailTaken(st.users, u.email) then Response(st, Err(InternalError))
      else Response(st.(users := st.users[newId := u]), Ok(View(newId, u)))
  }

  /** No two accounts share an email. */
  ghost predicate EmailsUnique(users: map<Id, User>) {
    forall a, b :: a in users && b in users && a != b ==> users[a].email != users[b].email
  }

  lemma RegisterKeepsEmailsUnique(st: Store, input: Registration, hash: string -> string, newId: Id)
    requires newId !in st.users && EmailsUnique(st.users)
    ensures EmailsUnique(Register(st, input, hash, newId).store.users)
  {
  }

  /** Normalising a normalised email changes nothing. */
  lemma NormalizeIdempotent(email: string)
    ensures NormalizeEmail(NormalizeEmail(email)) == NormalizeEmail(email)
  {
    var x := ToLower(email);
    var t := Trim(x);
    var a := LeadingSpace(x);
    forall i | 0 <= i < |t|
      ensures ToLower(t)[i] == t[i]
    {
      assert t[i] == x[a + i] == LowerChar(email[a + i]);
    }
    assert ToLower(t) == t;
    TrimIdempotent(x);
  }

  /** The duplicate check finds every stored email that lower-cases and trims to itself. */
  lemma StoredNormalizedEmailIsFound(users: map<Id, User>, email: string)
    requires NormalizeEmail(email) == email
    ensures EmailTaken(users, ToLower(email)) <==> EmailTaken(users, email)
  {
    var x := ToLower(email);
    forall i | 0 <= i < |email|
      ensures email[i] == x[i]
    {
      assert email == Trim(x);
      assert LeadingSpace(x) == 0 by {
        assert |Trim(x)| == |x|;
      }
    }
    assert x == email;
  }

  /**
    Registering an already registered email again fails: with USER_EXISTS when
    the email is submitted in its stored form, and with INTERNAL_ERROR from the
    unique index when only trimming makes it equal (the lookup does not trim).
   */
  lemma RegisterTwiceFails(st: Store, first: Registration, second: Registration, hash: string -> string,
                           id1: Id, id2: Id)
    requires id1 !in st.users && id2 != id1 && id2 !in st.users
    requires !EmailTaken(st.users, ToLower(first.email)) && !EmailTaken(st.users, NormalizeEmail(first.email))
    requires NormalizeEmail(first.email) != [] && ValidRole(OrElse(first.role, "customer"))
    requires NormalizeEmail(second.email) == NormalizeEmail(first.email)
    ensures var after := Register(st, first, hash, id1).store;
            && Register(after, second, hash, id2).result.Err?
            && (second.email == NormalizeEmail(first.email) ==> Register(after, second, hash, id2).result == Err(UserExists))
            && (!EmailTaken(after.users, ToLower(second.email)) ==> Register(after, second, hash, id2).result == Err(InternalError))
  {
    var after := Register(st, first, hash, id1).store;
    assert after.users[id1].email == NormalizeEmail(second.email);
    if second.email == NormalizeEmail(first.email) {
      NormalizeIdempotent(first.email);
      StoredNormalizedEmailIsFound(after.users, second.email);
    }
  }
}
